=== FILE: README.md ===
# hospital_news core, modelled in Dafny

hospital_news is a Node/Express site that publishes a hospital's news. An
administrator signs in with a password and a mailed one-time code. They
then create, edit and delete articles with image and PDF attachments. The
public sees the articles that are running, each at a canonical
`/news/<id>/<slug>` address.

The project models the logic behind this as pure functions over immutable
data. Each module follows one part of the source:

- `Slug`: URL slugs. This is `createSlug` of `utils/helpers.js`, plus the
  older variant inlined in `app.js`.
- `Auth`: the sign-in and one-time-password handlers of
  `controllers/authController.js`, and the `requireLogin` guard of
  `middleware/auth.js`. Each handler is a transition on the session that
  also yields a response. The inline `/admin/verify-2fa` handler of
  `app.js` (lines 142-168) makes the same transitions as `postVerify2FA`.
  Its error texts differ, and the model names errors rather than texts.
- `NewsModel` and `AttachmentModel`: the two tables of `models/`, as
  sequences of rows. Ids come from an auto-increment counter. The SQL
  filters and orderings become set and order specifications.
- `NewsController`: the admin write handlers of
  `controllers/newsController.js`, over the two tables and an abstract
  filesystem. The filesystem has the paths that exist and the paths whose
  unlink was requested. Which awaited call throws is a parameter. The inline
  delete handler of `app.js` (lines 291-304) is the same as `deleteNews`.
- `PublicController`: the home page and the article page of
  `controllers/publicController.js`. The article page's `Revision`
  parameter selects between this slug and the inline handler of `app.js`
  (lines 367-399), which uses the older slug.
- `Upload`: covers the parts of `middleware/upload.js` listed below, plus
  the per-day folder that `app.js` configures:
  - the MIME filter;
  - multer's count and size limits;
  - the stored file name;
  - the `MMMM_YYYY` folder.
- `Common` and `Text`: shared helpers.
  - `Common`: options, results, JavaScript truthiness of a text or an id,
    and filtering.
  - `Text`: decimal digits, zero padding, prefixes and suffixes.

Outside inputs become parameters:

- the clock (`now`, `today`);
- the random draw of the one-time code;
- the SHA-256 digest of the submitted password;
- whether the mail was sent;
- which database call fails;
- whether the view cookie is present.

Dates are integers.

## Model

| member | source | states |
|---|---|---|
| Slug.CreateSlugShape | utils/helpers.js:1-9 | The current slug uses only ASCII letters, ASCII digits, characters of U+0E00..U+0E7F and `-`. It never has two hyphens in a row and never starts or ends with one. An absent or empty title gives the empty slug. |
| Slug.CreateSlugKeepsLetters | utils/helpers.js:3-7 | Deleting the hyphens from the slug gives the title with every character outside the kept alphabet deleted. No kept character is lost, reordered or invented. |
| Slug.CreateSlugSteps | utils/helpers.js:3-7 | The hyphen-collapsing step is redundant: trim, replace and strip alone give the same slug. |
| Slug.SlugIsFixedPoint | utils/helpers.js:1-9 | Any string of slug shape is its own slug. |
| Slug.CreateSlugIdempotent | utils/helpers.js:1-9 | Slugging a slug changes nothing. |
| Slug.TwoWordsSlug | utils/helpers.js:1-9 | Two runs of kept characters are joined by one hyphen. This holds whatever run of dropped characters separates them, and whatever dropped characters come before or after. It covers titles like `Hello @ World!`, `-Hello-World-` and Thai titles with a space. |
| Slug.EdgeDashesExample | tests/helpers.test.js:18-20 | `-Hello-World-` gives `Hello-World`. |
| Slug.NoKeptCharEmptySlug | utils/helpers.js:1-9 | A title without a single kept character, such as `!!!`, has the empty slug. |
| Slug.LegacySlugShape | app.js:29-35 | The legacy slug holds no whitespace, `/`, `(`, `)` or `?`, and has no hyphen at either end. An absent or empty title gives the empty slug. |
| Slug.LegacySlugKeepsOthers | app.js:32 | Every character other than a separator survives the legacy slug in order. This includes `@`, `!` and hyphens already in the title. With hyphens deleted, the output is the title without its separators. |
| Slug.LegacySlugIdempotent | app.js:29-35 | Slugging a legacy slug with the legacy variant changes nothing. |
| Slug.CurrentKeepsSubsetOfLegacy | app.js:32 | Filtering the legacy slug to the current alphabet and deleting hyphens gives the current slug's characters. |
| Slug.RevisionsDiverge | app.js:29-35 | The two variants give different slugs for any title holding a character that one keeps and the other drops without replacing. `@` is such a character. |
| Slug.ReplaceRunsShape | utils/helpers.js:5 | After `replace(/P+/g, '-')`, every output character in the class `P` is a hyphen, and no two neighbouring characters are both in `P`. An input that starts outside `P` keeps its first character. |
| Slug.ReplaceRunsWithout | utils/helpers.js:5 | For a class that contains `-`, deleting the class from the replaced text gives the same as deleting it from the input. |
| Auth.Otp | controllers/authController.js:19 | A one-time code is six decimal digits whose value lies in 100000..999999. |
| Auth.GetLogin | controllers/authController.js:5-8 | A signed-in session is sent to the news list. Any other session gets the login form. The session is unchanged. |
| Auth.PostLogin | controllers/authController.js:10-43 | The username is matched exactly. A failed lookup, an unknown user or a wrong password re-renders the login form with that error and leaves the session as it was. A right password stores the user's id as provisional, with a fresh code and the time. It redirects to verification if the mail went out, and renders the system error otherwise. It never touches `userId`. |
| Auth.GetVerify2FA | controllers/authController.js:45-48 | The code form is shown exactly when a provisional id is present. |
| Auth.PostVerify2FA | controllers/authController.js:50-72 | No pending code redirects to login and changes nothing. A code older than five minutes destroys the session, whatever was submitted. A matching code in time signs the provisional user in and clears the provisional fields. A wrong code in time changes nothing. |
| Auth.Logout | controllers/authController.js:74-79 | The session is emptied and the response redirects to login. |
| Auth.RequireLogin | middleware/auth.js:1-4 | The request passes on exactly when the session is signed in. Otherwise it redirects to login. The guard never changes the session. |
| Auth.StepKeepsWellFormed | controllers/authController.js:19-23 | Every handler keeps the provisional fields together, and keeps a stored code at six digits in range. |
| Auth.StepUserId | controllers/authController.js:63 | `userId` changes only when a code is confirmed, and then becomes the provisional id. It is also cleared when the session is destroyed. |
| Auth.SignInNeedsOtp | controllers/authController.js:50-72 | A run of requests that ends signed in, starting from a session that was not, confirmed a one-time code at some step. The user signed in at the end is the provisional user that code was issued for. |
| Auth.OtpSingleUse | controllers/authController.js:55-66 | A confirmed code cannot be used again: resubmitting it is sent to login. |
| Auth.ExpiryBoundary | controllers/authController.js:57-60 | A code exactly 300000 ms old is still accepted. One a millisecond older is refused and the session destroyed. |
| Auth.WrongOtpKeepsSession | controllers/authController.js:68-70 | A wrong code in time leaves the session as it was, so the right code still works afterwards. |
| Auth.MailFailureKeepsOtp | controllers/authController.js:21-42 | When the mail fails after a right password, the provisional fields stay. The undelivered code can still sign the user in. |
| Auth.ProvisionalRejected | middleware/auth.js:2-3 | A session with only the provisional fields does not pass the guard. |
| Auth.LoginOpensVerifyForm | controllers/authController.js:18-48 | After a right password the code form opens. The exception is the user id 0, which is falsy, so that user is sent back to login. |
| Auth.ConfirmedPassesGuard | controllers/authController.js:5-66 | Once the code is confirmed, the login page forwards to the news list and the guard lets requests through. |
| NewsModel.Insert | models/newsModel.js:4 | Insertion adds exactly the one element. |
| NewsModel.InsertKeepsSorted | models/newsModel.js:4 | Inserting into a list sorted by descending key keeps it sorted. |
| NewsModel.SortDesc | models/newsModel.js:4 | `ORDER BY ... DESC` gives a permutation of the rows in non-increasing key order. |
| NewsModel.GetAllNews | models/newsModel.js:3-6 | Every row, each once, latest start first. |
| NewsModel.GetNewsById | models/newsModel.js:8-11 | A row is found exactly when one carries the id, and the row found carries it. |
| NewsModel.CreateNews | models/newsModel.js:13-20 | Exactly one row is appended, with the six given fields and no views, under an id no row had. |
| NewsModel.UpdateNews | models/newsModel.js:22-28 | The six fields of the rows with that id are overwritten. Ids, view counts and other rows are unchanged. |
| NewsModel.DeleteNews | models/newsModel.js:30-32 | The id is gone, every other row stays, and nothing new appears. |
| NewsModel.IncrementViewCount | models/newsModel.js:34-36 | The rows with that id gain one view. Nothing else changes. |
| NewsModel.GetPublicNews | models/newsModel.js:38-49 | Exactly the rows whose category equals the requested text and that have started and not ended, each once, latest start first. |
| NewsModel.GetArchivedNews | models/newsModel.js:51-60 | Exactly the rows that have ended, each once, latest end first. |
| NewsModel.CreateThenGet | models/newsModel.js:8-20 | The id `createNews` returns reads back the row it wrote. |
| NewsModel.OperationsKeepValid | models/newsModel.js:22-36 | Update, delete and view counting keep ids unique and below the counter. |
| NewsModel.IncrementKeepsValid | models/newsModel.js:34-36 | Counting a view keeps ids unique and below the counter. |
| NewsModel.UpdateThenGet | models/newsModel.js:8-28 | After an update the row reads back with the new fields and its old views. |
| NewsModel.DeleteThenGet | models/newsModel.js:8-32 | After a delete the id finds nothing, and every other id reads back as before. |
| NewsModel.IncrementThenGet | models/newsModel.js:8-36 | After counting a view the row reads back with one more view. |
| NewsModel.UniqueLookup | models/newsModel.js:8-11 | With unique ids, looking up a row's id finds that row. |
| NewsModel.PublicAndArchivedDisjoint | models/newsModel.js:44-55 | No article is both running and archived at the same instant. |
| NewsModel.PublicWithinAll | models/newsModel.js:3-49 | A category's running articles are among all articles. |
| AttachmentModel.AddAttachments | models/attachmentModel.js:3-7 | An absent or empty list changes nothing. Otherwise one row per tuple follows the old rows, in order. The k-th new row gets the counter's value plus k, so the new ids are consecutive, differ from each other and from every old id, and the ids stay unique. The counter moves past them. |
| AttachmentModel.GetByNewsId | models/attachmentModel.js:9-12 | Exactly the rows of that article, each as many times as the table holds it. |
| AttachmentModel.GetByIds | models/attachmentModel.js:14-21 | Exactly the rows whose id is listed, each as many times as the table holds it. An absent or empty argument gives nothing. |
| AttachmentModel.DeleteByIds | models/attachmentModel.js:23-29 | Exactly the rows whose id is listed go. Every other row stays as many times as it was there. An absent or empty argument changes nothing. |
| AttachmentModel.DeleteByNewsId | models/attachmentModel.js:31-33 | Exactly the rows of that article go. Every other row stays as many times as it was there. |
| AttachmentModel.SingleIsList | models/attachmentModel.js:17 | A single non-zero id behaves as the one-element array holding it, for reads and deletes. |
| AttachmentModel.DeleteThenGetByIds | models/attachmentModel.js:14-29 | After a delete, a read by ids finds the rows it found before minus the deleted ids. |
| AttachmentModel.AddThenGetByNewsId | models/attachmentModel.js:3-12 | Old rows of an article are still found after an insert. Each inserted tuple for it is found too. |
| AttachmentModel.DeleteByIdsKeepsValid | models/attachmentModel.js:23-29 | Deleting keeps every id below the counter, and no two rows share an id. |
| AttachmentModel.DeleteByNewsIdEmpties | models/attachmentModel.js:31-33 | After deleting an article's attachments, none are found for it. |
| Upload.TakeSpec | middleware/upload.js:25-34 | Only parts with a file name count. A request passes the limits exactly when these all hold: every such part names `images` or `pdf_file`; each field's part count is within its maximum, rejected parts included; and every accepted part is within 20 MiB. Each field then receives exactly its named parts that the filter accepts, in order. |
| Upload.UnnamedIsIgnored | middleware/upload.js:25-34 | A file part with an empty file name changes nothing, wherever it comes in the request. |
| Upload.ReceiveBounds | middleware/upload.js:25-34 | A request that passes carries at most 10 images and one PDF. Each is accepted by the filter and within the size limit. |
| Upload.RejectedIsDropped | middleware/upload.js:27 | A part the filter rejects is dropped silently. It changes nothing the handler receives. |
| Upload.AfterLastSlash | middleware/upload.js:19 | The result is the tail of the path after its last `/`, or the whole path when it has none. |
| Upload.Ext | middleware/upload.js:18 | The extension is empty, or a dot followed by no other dot. It is shorter than the name unless empty. |
| Upload.Stem | middleware/upload.js:19 | Stem and extension put back together give the file name. |
| Upload.StoredName | middleware/upload.js:16-22 | The stored name starts with the original stem and `_`, and ends with the original extension. |
| Upload.StoredNameKeepsExt | middleware/upload.js:16-22 | Node reads the stored name's extension as the original's. This needs a date stamp and suffix free of `.` and `/`, and an original not named `..`. |
| Upload.SameFolderIffSameMonth | middleware/upload.js:6-15 | Two start dates share an upload folder exactly when they fall in the same month of the same year. |
| Upload.MissingDateIsToday | middleware/upload.js:8-11 | A missing start date files the upload, and stamps it, as today. |
| Upload.DayFolderInsideMonthFolder | app.js:64-81 | The per-day folder of `app.js` lies strictly inside the month folder of the middleware. |
| Upload.DateStampDigits | middleware/upload.js:18 | For years 0 to 9999 the date stamp is eight digits worth year * 10000 + month * 100 + day. Stamps therefore sort as their dates do. |
| Upload.YearTextInjective | middleware/upload.js:11 | Different years print differently. |
| NewsController.NewRows | controllers/newsController.js:69-78 | Each file becomes a row pointing at the article and at `uploads/<relative path>`. The row is typed PDF exactly when the MIME type contains `pdf`, and keeps the original name. |
| NewsController.UploadCommit | controllers/newsController.js:64-81 | A committed create adds one article with the form's fields, its slug and no views. After the old attachments come one row per file, in order, with fresh ids. |
| NewsController.PostUpload | controllers/newsController.js:44-91 | A missing title or date answers 400 before any connection and leaves the uploaded files on disk. Success stores the article and its rows, and redirects. A failure rolls back, requests an unlink of every new file and answers 500. The connection is released if it was opened. The attachment rows are undone, but a news row already written stays. |
| NewsController.PostUploadAtomic | controllers/newsController.js:44-91 | As `PostUpload`, except that a failure leaves the store exactly as it was. |
| NewsController.UploadThenGet | controllers/newsController.js:60-67 | A committed create reads back by its new id, with the slug of its title. |
| NewsController.UploadFaultKeepsNews | controllers/newsController.js:67-84 | As written, a failing attachment insert answers 500 but leaves the article's row, without attachments. |
| NewsController.UploadAtomicAgrees | controllers/newsController.js:63-90 | The corrected create differs from the one as written exactly when a call after the news insert fails. |
| NewsController.UpdateCommit | controllers/newsController.js:125-152 | A committed edit overwrites the article's fields and slug. It deletes the selected attachment rows, whatever article owns them, keeps the others, and appends one fresh row per new file. |
| NewsController.PostUpdate | controllers/newsController.js:110-162 | Success commits the edit and requests unlinks of the selected files that exist. A failure answers 500 and requests unlinks of the new files. The attachment rows are rolled back, but the news update stays once written. The unlinks requested on failure are exactly the new files, plus the selected files that exist when the failure is at the attachment insert or the commit. The selection's read and delete can fail only for a non-empty id list. |
| NewsController.PostUpdateAtomic | controllers/newsController.js:110-162 | As `PostUpdate` on success. A failure leaves the store as it was and unlinks only the new files. |
| NewsController.UpdateThenGet | controllers/newsController.js:121-128 | After a committed edit the article reads back with the form's fields, its title's slug and its old view count. |
| NewsController.UpdateDeletesSelection | controllers/newsController.js:130-133 | After a committed edit an old attachment is kept exactly when its id was not selected. |
| NewsController.UpdateFaultUnlinksKeptFile | controllers/newsController.js:130-158 | As written, an edit can select a file and then fail on the attachment insert. It answers 500 and keeps the row through the rollback, but has already requested the file's unlink. |
| NewsController.UpdateAtomicKeepsFile | controllers/newsController.js:130-158 | In the corrected edit a failure never unlinks a selected file. Its row stays. |
| NewsController.UpdateAtomicAgrees | controllers/newsController.js:110-162 | Without a failure the corrected edit and the one as written agree. |
| NewsController.DeleteNews | controllers/newsController.js:164-196 | On success the article's row is gone and every other row stays. Unlinks are requested for exactly the existing files of its attachments. The attachment rows are untouched. A failure answers 500 and changes nothing. |
| NewsController.DeleteNewsThenGet | controllers/newsController.js:164-196 | After a delete the article reads as missing, every other one as before. Its attachment rows are still found. |
| NewsController.DeleteFile | controllers/newsController.js:198-222 | An unknown id answers 404 and changes nothing. A known id loses exactly its rows and the first row's file is unlinked if it exists, with `{ success: true }`. A failure of the read, or of the delete for a known id, answers 500 with `Server error` and changes nothing. |
| NewsController.RemoveFile | controllers/newsController.js:204-217 | A found row's id is deleted, its file unlinked if it exists, and success reported. Nothing else changes. |
| NewsController.DeleteFileTwice | controllers/newsController.js:198-222 | After a delete the id finds nothing, and deleting it again answers 404. |
| PublicController.GetHome | controllers/publicController.js:6-16 | Exactly the running articles whose category equals the chosen text, each as many times as the table holds it, latest start first, with the four categories. A failing query gives the error page. |
| PublicController.NewsDetail | controllers/publicController.js:27-55 | An unknown id is 404. A requested slug other than the canonical one, or none, is a permanent redirect to the canonical address. A hidden article is "not yet available": nobody signed in and not started. Otherwise the article renders exactly when neither the file read nor a needed view count fails. It shows the row read before counting, with exactly its attachments, each as many times as the table holds it. Without the view cookie, one view is counted and the cookie set. A failed count or lookup changes nothing; only a render or a failed file read changes the table. |
| PublicController.NewsDetailFixed | controllers/publicController.js:36-37 | With the bare route taken as the address of an empty slug, every request with a slug is answered as `NewsDetail` answers it. The bare route redirects exactly when the slug is not empty. |
| PublicController.SluglessRouteRedirects | app.js:398-399 | The `/news/:id` route always redirects when the article exists. |
| PublicController.RedirectThenRender | controllers/publicController.js:36-42 | When the canonical slug is not empty, following the redirect reaches the article, or "not yet available". |
| PublicController.CurrentSlugRoutable | utils/helpers.js:1-9 | A slug of the current variant never holds `%`, `#` or `\`, and is never `.` or `..`, so the browser and router hand it back unchanged. |
| PublicController.EmptySlugLoops | controllers/publicController.js:36-37 | An article whose slug is empty is redirected to `/news/<id>/` on every request. That address arrives on the bare route and gets the same redirect again. |
| PublicController.FixedRedirectThenRender | controllers/publicController.js:36-42 | With the bare route taken as the empty slug's address, one redirect always reaches the article, or "not yet available". |
| PublicController.EndedArticleStillCounts | controllers/publicController.js:39-47 | Nothing checks the end date: an ended article still shows and still counts a first view. |
| PublicController.AdminsSeeUnpublished | controllers/publicController.js:42 | A signed-in administrator sees an article before its start. The public gets "not yet available". |
| PublicController.SecondViewNotCounted | controllers/publicController.js:44-47 | With the cookie from a first view, a second view shows the article and counts nothing more. |
| PublicController.RevisionsRedirectDifferently | app.js:377-378 | A title holding a character like `@` has different canonical addresses in the two revisions. The address one shows, the other redirects away from. |

## Left out

- `fixUtf8` (controllers/newsController.js:34-42) is not modelled. It depends on Node's latin1 to UTF-8 decoding, so form text and original names are taken as already decoded.
- `getNewsList`, `getUpload`, `getEdit` and `getSuccessMessage` of controllers/newsController.js and `getArchive` of controllers/publicController.js are not modelled. They only render a view from queries the model covers.
- `models/userModel.js` is folded into `Auth.PostLogin` as a map from username to user. `db.js`, `routes/*` and `scripts/*` are wiring or I/O.
- The SHA-256 hash, `Math.random`, `Date.now`, `moment`'s parsing and formatting, and nodemailer are parameters: a digest, a draw, `now`, a parsed `StartDate`, a mail-sent flag.
- EJS rendering, cookie and session-store mechanics are left out. A response names its view and error, not their text. The Thai error messages of `app.js` are not modelled.
- Concurrency is not modelled: concurrent requests and unique-suffix collisions between concurrent uploads.
- The unlink callbacks and `fs.mkdir` are not modelled. An unlink request is recorded, and the file's disappearance is not.
- Rollback and release failures are not modelled. A failing `rollback` would throw out of the `catch` block.
- A `ON DELETE CASCADE` the schema may declare is not modelled. `deleteNews` leaves the attachment rows, as its own statements do.
- SQL's coercion of id text is not modelled: ids in URLs and forms are integers, and `/news/<id>` prints an id in canonical decimal. The redirect location is not URL-encoded.
- NULL columns are not modelled. An edit form's dates are integers, and an absent category or YouTube link is stored as the empty string.
- The `app.js` upload and update handlers (lines 200-289) are not modelled separately. They issue `START TRANSACTION` on the pool, so they are no more atomic than the controller handlers that `NewsController` models.
- Windows path separators are not modelled: `replace(/\\/g, '/')` is the identity on POSIX paths.
- Equal sort keys are not modelled. The SQL ordering leaves ties open, and the model promises only the rows and a non-increasing key order.
- The worked examples `Hello World`, `Hello @ World!`, `Hello   World` and the Thai title are instances of `Slug.TwoWordsSlug`. Only `-Hello-World-` is also stated as its own lemma.
- PublicController.RedirectThenRender: the trip of the redirect through `res.redirect`, the browser and Express is modelled only for routable slugs. A legacy slug holding `%XX`, `#` or `\`, or equal to `.` or `..`, comes back changed and can loop too. Every current slug is routable.
- NewsController.PostUpload: a rollback restores the attachment id counter, while InnoDB does not reuse AUTO_INCREMENT values. Ids stay unique; only the gaps in the numbering differ.
- NewsController.PostUpdate: a rollback restores the attachment id counter too, for the same reason.
- Auth.PostLogin: usernames are compared exactly. The `users` table and the connection use the `utf8mb4_unicode_ci` collation (db.js:18, scripts/fix_db_encoding.js:11 and :22), so `WHERE username = ?` also ignores case, trailing spaces and accents. `ADMIN` or `admin ` would find the `admin` row. Unicode collation is not modelled.
- NewsModel.GetPublicNews: `WHERE category = ?` is compared exactly, for the same reason. Under the collation, a category written with other case, trailing spaces or other accents also selects the rows.
- PublicController.GetHome: it inherits the exact category comparison of `NewsModel.GetPublicNews`. A query such as `?category=<category>%20` lists that category's articles in the program, and none in the model.
- Upload.DateStampDigits: the eight-digit reading holds only for years 0 to 9999. Other years still print as `YearText` describes.

## Findings

| source | as written | input that shows it | evidently intended | confidence | as-written member | corrected member |
|---|---|---|---|---|---|---|
| controllers/newsController.js:67 | `createNews` is handed the transaction connection, but models/newsModel.js:13-20 ignores it and inserts on the pool | A create with one file whose attachment insert fails | The rollback undoes the whole create, and no article without its attachments remains | not executed | NewsController.UploadFaultKeepsNews | NewsController.PostUploadAtomic |
| controllers/publicController.js:36-37 | An article whose title has no kept character gets the empty slug, and the redirect goes to `/news/<id>/`. Express matches `:slug` only against a non-empty segment (routes/publicRoutes.js:7-8), so that address is served by the bare route, which redirects again | An article titled `!!!` | The article is shown at `/news/<id>/`, and one redirect always reaches it | not executed | PublicController.EmptySlugLoops | PublicController.FixedRedirectThenRender |
| controllers/newsController.js:128-138 | `updateNews` runs on the pool, and the selected files are unlinked before the commit | An edit selecting an existing file whose new-attachment insert then fails | A failed edit keeps both the old row and its file, and the news update is undone | not executed | NewsController.UpdateFaultUnlinksKeptFile | NewsController.UpdateAtomicKeepsFile |

=== FILE: attachment_model.dfy ===
/**
 * The attachments table of models/attachmentModel.js as an in-memory
 * sequence of rows, with the guards its functions put on their arguments.
 *
 * Whether a call runs on a transaction connection or on the pool does not
 * change what it does to the table; the controller module decides which
 * writes a rollback undoes.
 */
module AttachmentModel {
  import opened Common

  datatype FileType = Image | Pdf

  datatype Attachment = Attachment(
    id: int,
    newsId: int,
    filePath: string,
    fileType: FileType,
    originalName: string)

  /** One `[news_id, file_path, file_type, original_name]` tuple of a bulk insert. */
  datatype NewAttachment = NewAttachment(
    newsId: int,
    filePath: string,
    fileType: FileType,
    originalName: string)

  datatype AttachmentTable = AttachmentTable(rows: seq<Attachment>, nextId: int)

  /**
   * The id argument of `getByIds` and `deleteByIds`: `null`/`undefined`, a
   * single id, or an array of ids.
   */
  datatype IdsArg = Absent | Single(id: int) | List(ids: seq<int>)

  /** Every id is below the auto-increment counter, and no two rows share one. */
  predicate Valid(t: AttachmentTable) {
    && (forall i :: 0 <= i < |t.rows| ==> t.rows[i].id < t.nextId)
    && DistinctIds(t.rows)
  }

  /** No two rows share an id (the primary key). */
  predicate DistinctIds(rows: seq<Attachment>) {
    forall i, j :: 0 <= i < j < |rows| ==> rows[i].id != rows[j].id
  }

  /**
   * The ids a call acts on, or none when the guard `!ids || ids.length === 0`
   * returns early. A single number is falsy when it is 0; its `length` is
   * undefined, so the second test never fires for it, and it is wrapped
   * into a one-element array.
   */
  function IdList(ids: IdsArg): (r: seq<int>)
    ensures ids.Absent? ==> r == []
    ensures ids.Single? ==> r == (if ids.id == 0 then [] else [ids.id])
    ensures ids.List? ==> r == ids.ids
  {
    match ids
    case Absent => []
    case Single(id) => if id == 0 then [] else [id]
    case List(l) => l
  }

  function Ids(rows: seq<Attachment>): set<int> {
    set i | 0 <= i < |rows| :: rows[i].id
  }

  lemma IdOfRow(rows: seq<Attachment>, a: Attachment)
    requires a in rows
    ensures a.id in Ids(rows)
  {
    var i :| 0 <= i < |rows| && rows[i] == a;
  }

  lemma AbsentId(rows: seq<Attachment>, id: int)
    requires forall a :: a in rows ==> a.id != id
    ensures id !in Ids(rows)
  {
    forall i | 0 <= i < |rows| ensures rows[i].id != id {
      assert rows[i] in rows;
    }
  }

  function HasNewsId(newsId: int): Attachment -> bool {
    (a: Attachment) => a.newsId == newsId
  }

  function IdIn(ids: seq<int>): Attachment -> bool {
    (a: Attachment) => a.id in ids
  }

  function IdNotIn(ids: seq<int>): Attachment -> bool {
    (a: Attachment) => a.id !in ids
  }

  function NotNewsId(newsId: int): Attachment -> bool {
    (a: Attachment) => a.newsId != newsId
  }

  /** The rows a bulk insert writes, with consecutive ids from `first`. */
  function Rows(files: seq<NewAttachment>, first: int): (r: seq<Attachment>)
    ensures |r| == |files|
    ensures forall k :: 0 <= k < |files| ==>
      r[k] == Attachment(first + k, files[k].newsId, files[k].filePath, files[k].fileType, files[k].originalName)
  {
    if files == [] then []
    else
      var f := files[0];
      [Attachment(first, f.newsId, f.filePath, f.fileType, f.originalName)] + Rows(files[1..], first + 1)
  }

  /**
   * `addAttachments`: one row per tuple, in order; a missing or empty list
   * changes nothing.
   */
  function AddAttachments(t: AttachmentTable, files: Option<seq<NewAttachment>>): (r: AttachmentTable)
    requires Valid(t)
    ensures Valid(r)
    ensures files.None? || files.value == [] ==> r == t
    ensures files.Some? ==> |r.rows| == |t.rows| + |files.value| && r.rows[..|t.rows|] == t.rows
    ensures files.Some? ==> r.nextId == t.nextId + |files.value|
    ensures files.Some? ==> forall k :: 0 <= k < |files.value| ==>
      var row := r.rows[|t.rows| + k];
      && row.id !in Ids(t.rows) && row.id == t.nextId + k
      && NewAttachment(row.newsId, row.filePath, row.fileType, row.originalName) == files.value[k]
  {
    if files.None? || files.value == [] then t
    else
      var added := Rows(files.value, t.nextId);
      var r := AttachmentTable(t.rows + added, t.nextId + |files.value|);
      assert r.rows[..|t.rows|] == t.rows;
      assert DistinctIds(r.rows) by {
        var n := |t.rows|;
        forall i, j | 0 <= i < j < |r.rows| ensures r.rows[i].id != r.rows[j].id {
          if j < n {
            assert r.rows[i] == t.rows[i] && r.rows[j] == t.rows[j];
          } else if i < n {
            assert r.rows[i] == t.rows[i] && r.rows[j] == added[j - n];
          } else {
            assert r.rows[i] == added[i - n] && r.rows[j] == added[j - n];
          }
        }
      }
      r
  }

  /** `getByNewsId`: the attachments of one article, in table order. */
  function GetByNewsId(t: AttachmentTable, newsId: int): (r: seq<Attachment>)
    ensures forall a :: a in r <==> a in t.rows && a.newsId == newsId
    ensures forall a {:trigger multiset(r)[a]} :: multiset(r)[a] == if a.newsId == newsId then multiset(t.rows)[a] else 0
  {
    var r := Where(HasNewsId(newsId), t.rows);
    assert forall a :: multiset(r)[a] == if a.newsId == newsId then multiset(t.rows)[a] else 0 by {
      forall a ensures multiset(r)[a] == if a.newsId == newsId then multiset(t.rows)[a] else 0 {
        WhereCount(HasNewsId(newsId), t.rows, a);
      }
    }
    assert forall a :: a in t.rows && a.newsId == newsId ==> a in r by {
      forall a | a in t.rows && a.newsId == newsId ensures a in r {
        var i :| 0 <= i < |t.rows| && t.rows[i] == a;
      }
    }
    r
  }

  /** `getByIds`: the rows whose id is listed; nothing for a missing or empty argument. */
  function GetByIds(t: AttachmentTable, ids: IdsArg): (r: seq<Attachment>)
    ensures forall a :: a in r <==> a in t.rows && a.id in IdList(ids)
    ensures forall a {:trigger multiset(r)[a]} :: multiset(r)[a] == if a.id in IdList(ids) then multiset(t.rows)[a] else 0
    ensures IdList(ids) == [] ==> r == []
  {
    var list := IdList(ids);
    if list == [] then []
    else
      var r := Where(IdIn(list), t.rows);
      assert forall a :: multiset(r)[a] == if a.id in list then multiset(t.rows)[a] else 0 by {
        forall a ensures multiset(r)[a] == if a.id in list then multiset(t.rows)[a] else 0 {
          WhereCount(IdIn(list), t.rows, a);
        }
      }
      assert forall a :: a in t.rows && a.id in list ==> a in r by {
        forall a | a in t.rows && a.id in list ensures a in r {
          var i :| 0 <= i < |t.rows| && t.rows[i] == a;
        }
      }
      r
  }

  /** `deleteByIds`: the listed ids are removed; a missing or empty argument changes nothing. */
  function DeleteByIds(t: AttachmentTable, ids: IdsArg): (r: AttachmentTable)
    ensures r.nextId == t.nextId
    ensures forall a :: a in r.rows <==> a in t.rows && a.id !in IdList(ids)
    ensures forall a {:trigger multiset(r.rows)[a]} :: multiset(r.rows)[a] == if a.id !in IdList(ids) then multiset(t.rows)[a] else 0
    ensures IdList(ids) == [] ==> r == t
  {
    var list := IdList(ids);
    if list == [] then t
    else
      var rows := Where(IdNotIn(list), t.rows);
      assert forall a :: multiset(rows)[a] == if a.id !in list then multiset(t.rows)[a] else 0 by {
        forall a ensures multiset(rows)[a] == if a.id !in list then multiset(t.rows)[a] else 0 {
          WhereCount(IdNotIn(list), t.rows, a);
        }
      }
      assert forall a :: a in t.rows && a.id !in list ==> a in rows by {
        forall a | a in t.rows && a.id !in list ensures a in rows {
          var i :| 0 <= i < |t.rows| && t.rows[i] == a;
        }
      }
      AttachmentTable(rows, t.nextId)
  }

  /** `deleteByNewsId`: every attachment of one article is removed. */
  function DeleteByNewsId(t: AttachmentTable, newsId: int): (r: AttachmentTable)
    ensures r.nextId == t.nextId
    ensures forall a :: a in r.rows <==> a in t.rows && a.newsId != newsId
    ensures forall a {:trigger multiset(r.rows)[a]} :: multiset(r.rows)[a] == if a.newsId != newsId then multiset(t.rows)[a] else 0
  {
    var rows := Where(NotNewsId(newsId), t.rows);
    assert forall a :: multiset(rows)[a] == if a.newsId != newsId then multiset(t.rows)[a] else 0 by {
      forall a ensures multiset(rows)[a] == if a.newsId != newsId then multiset(t.rows)[a] else 0 {
        WhereCount(NotNewsId(newsId), t.rows, a);
      }
    }
    assert forall a :: a in t.rows && a.newsId != newsId ==> a in rows by {
      forall a | a in t.rows && a.newsId != newsId ensures a in rows {
        var i :| 0 <= i < |t.rows| && t.rows[i] == a;
      }
    }
    AttachmentTable(rows, t.nextId)
  }

  // ---------------------------------------------------------------------------
  // Properties relating the operations

  /** A single non-zero id is treated as the one-element array holding it. */
  lemma SingleIsList(t: AttachmentTable, id: int)
    requires id != 0
    ensures GetByIds(t, Single(id)) == GetByIds(t, List([id]))
    ensures DeleteByIds(t, Single(id)) == DeleteByIds(t, List([id]))
  {
  }

  /** Deleted ids are not found any more, and the other rows are. */
  lemma DeleteThenGetByIds(t: AttachmentTable, ids: IdsArg, other: IdsArg)
    ensures forall a ::
      a in GetByIds(DeleteByIds(t, ids), other) <==> a in GetByIds(t, other) && a.id !in IdList(ids)
  {
  }

  /** Inserted rows are found under their article. */
  lemma AddThenGetByNewsId(t: AttachmentTable, files: seq<NewAttachment>, newsId: int)
    requires Valid(t)
    ensures var r := GetByNewsId(AddAttachments(t, Some(files)), newsId);
      && (forall a :: a in GetByNewsId(t, newsId) ==> a in r)
      && (forall k :: 0 <= k < |files| && files[k].newsId == newsId ==>
            exists a :: a in r && NewAttachment(a.newsId, a.filePath, a.fileType, a.originalName) == files[k])
  {
    var t' := AddAttachments(t, Some(files));
    forall a | a in GetByNewsId(t, newsId) ensures a in t'.rows {
      var i :| 0 <= i < |t.rows| && t.rows[i] == a;
      assert t'.rows[..|t.rows|][i] == a;
    }
    forall k | 0 <= k < |files| && files[k].newsId == newsId
      ensures exists a :: a in GetByNewsId(t', newsId) && NewAttachment(a.newsId, a.filePath, a.fileType, a.originalName) == files[k]
    {
      var a := t'.rows[|t.rows| + k];
      assert a in t'.rows;
    }
  }

  /** Deleting rows keeps every remaining id below the counter, and the ids distinct. */
  lemma DeleteByIdsKeepsValid(t: AttachmentTable, ids: IdsArg)
    requires Valid(t)
    ensures Valid(DeleteByIds(t, ids))
  {
    var r := DeleteByIds(t, ids);
    if IdList(ids) != [] {
      WhereKeepsDistinctIds(IdNotIn(IdList(ids)), t.rows);
    }
    forall i | 0 <= i < |r.rows| ensures r.rows[i].id < r.nextId {
      var a := r.rows[i];
      assert a in r.rows;
      var j :| 0 <= j < |t.rows| && t.rows[j] == a;
    }
  }

  /** Filtering keeps the ids distinct. */
  lemma {:induction false} WhereKeepsDistinctIds(p: Attachment -> bool, rows: seq<Attachment>)
    requires DistinctIds(rows)
    ensures DistinctIds(Where(p, rows))
    decreases |rows|
  {
    if rows != [] {
      var tail := rows[1..];
      assert DistinctIds(tail) by {
        forall i, j | 0 <= i < j < |tail| ensures tail[i].id != tail[j].id {
          assert tail[i] == rows[i + 1] && tail[j] == rows[j + 1];
        }
      }
      WhereKeepsDistinctIds(p, tail);
      if p(rows[0]) {
        assert rows == [rows[0]] + tail;
        PrependDistinct(rows[0], Where(p, tail), tail);
      }
    }
  }

  /** A row whose id no later row repeats can go in front of a filtered tail. */
  lemma PrependDistinct(x: Attachment, rest: seq<Attachment>, tail: seq<Attachment>)
    requires DistinctIds([x] + tail) && DistinctIds(rest)
    requires forall a :: a in rest ==> a in tail
    ensures DistinctIds([x] + rest)
  {
    var r := [x] + rest;
    forall i, j | 0 <= i < j < |r| ensures r[i].id != r[j].id {
      if i == 0 {
        assert r[j] == rest[j - 1] && rest[j - 1] in tail;
        var k :| 0 <= k < |tail| && tail[k] == r[j];
        var full := [x] + tail;
        assert full[0] == x == r[0] && full[k + 1] == r[j];
        assert full[0].id != full[k + 1].id;
      } else {
        assert r[i] == rest[i - 1] && r[j] == rest[j - 1];
      }
    }
  }

  /** Removing an article's attachments leaves none behind for it. */
  lemma DeleteByNewsIdEmpties(t: AttachmentTable, newsId: int)
    ensures forall a :: a !in GetByNewsId(DeleteByNewsId(t, newsId), newsId)
  {
  }
}

=== FILE: auth.dfy ===
/**
 * The administrator sign-in of controllers/authController.js and the guard of
 * middleware/auth.js, as transitions over the session.
 *
 * The session is the source's bag of optional fields: `userId` marks a
 * signed-in administrator, and the triple `tempUserId`, `otp`, `otpTime`
 * marks a password that was accepted but whose one-time password (OTP) has
 * not yet been confirmed. Each handler maps the session and the request to a
 * new session and a response. The password hash, the user lookup, the
 * random draw, the clock and the mail transport are parameters.
 */
module Auth {
  import opened Common
  import opened Text

  datatype Session = Session(
    userId: Option<int>,
    tempUserId: Option<int>,
    otp: Option<string>,
    otpTime: Option<int>)

  /** A fresh or destroyed session. */
  const Empty := Session(None, None, None, None)

  /** A row of the users table, as `findByUsername` returns it. */
  datatype User = User(id: int, passwordHash: string, email: string)

  /** The error messages the login and verification pages show. */
  datatype LoginError = UnknownUser | WrongPassword | SystemError | OtpExpired | OtpMismatch

  datatype Response =
    | Redirect(path: string)
    | Render(view: string, error: Option<LoginError>)
    | Next

  datatype Outcome = Outcome(session: Session, response: Response)

  const LoginPath := "/admin/login"
  const VerifyPath := "/admin/verify-2fa"
  const NewsPath := "/admin/news"
  const LoginView := "admin/login"
  const VerifyView := "admin/verify_2fa"

  /** An OTP lives five minutes. */
  const OtpLifetime := 5 * 60 * 1000

  /** An administrator is signed in: `req.session.userId` is truthy. */
  predicate SignedIn(s: Session) {
    PresentId(s.userId)
  }

  /** A password was accepted and its OTP is awaited. */
  predicate AwaitingOtp(s: Session) {
    PresentId(s.tempUserId) && PresentText(s.otp)
  }

  /**
   * The OTP of a draw: `Math.floor(100000 + Math.random() * 900000)` in
   * decimal, where `draw` is the integer part of `Math.random() * 900000`.
   */
  function Otp(draw: nat): (otp: string)
    requires draw < 900000
    ensures |otp| == 6 && AllDigits(otp)
    ensures 100000 <= ValueOf(otp) <= 999999
  {
    var n := 100000 + draw;
    DecimalRoundTrip(n);
    DecimalLength(n, 6);
    DecimalLength(n, 5);
    assert Pow10(5) == 100000 && Pow10(6) == 1000000;
    Decimal(n)
  }

  /**
   * `Date.now() - otpTime > 300000`. A missing `otpTime` makes the
   * difference `NaN`, and the comparison false.
   */
  predicate Expired(otpTime: Option<int>, now: int) {
    otpTime.Some? && now - otpTime.value > OtpLifetime
  }

  /** `getLogin`: a signed-in administrator goes to the news list. */
  function GetLogin(s: Session): (o: Outcome)
    ensures o.session == s
    ensures o.response == (if SignedIn(s) then Redirect(NewsPath) else Render(LoginView, None))
  {
    if SignedIn(s) then Outcome(s, Redirect(NewsPath)) else Outcome(s, Render(LoginView, None))
  }

  /**
   * `postLogin`. `users` is the users table keyed by username, matched
   * exactly rather than under the database's case-folding collation; `lookupFails`
   * a database failure, `inputHash` the SHA-256 hex digest of the submitted
   * password, `draw` the random draw, `now` the clock and `mailSent` whether
   * `sendMail` resolved. A failed mail is caught after the provisional fields
   * are already in the session, and they stay there.
   */
  function PostLogin(
    s: Session, users: map<string, User>, lookupFails: bool,
    username: string, inputHash: string, draw: nat, now: int, mailSent: bool): (o: Outcome)
    requires draw < 900000
    ensures o.session.userId == s.userId
    ensures lookupFails ==> o == Outcome(s, Render(LoginView, Some(SystemError)))
    ensures !lookupFails && username !in users ==> o == Outcome(s, Render(LoginView, Some(UnknownUser)))
    ensures !lookupFails && username in users && inputHash != users[username].passwordHash
        ==> o == Outcome(s, Render(LoginView, Some(WrongPassword)))
    ensures !lookupFails && username in users && inputHash == users[username].passwordHash
        ==> && o.session.tempUserId == Some(users[username].id)
            && o.session.otp.Some? && |o.session.otp.value| == 6
            && o.session.otp == Some(Otp(draw))
            && o.session.otpTime == Some(now)
            && o.response == (if mailSent then Redirect(VerifyPath) else Render(LoginView, Some(SystemError)))
  {
    if lookupFails then Outcome(s, Render(LoginView, Some(SystemError)))
    else if username !in users then Outcome(s, Render(LoginView, Some(UnknownUser)))
    else
      var user := users[username];
      if inputHash == user.passwordHash then
        var s' := s.(tempUserId := Some(user.id), otp := Some(Otp(draw)), otpTime := Some(now));
        if mailSent then Outcome(s', Redirect(VerifyPath))
        else Outcome(s', Render(LoginView, Some(SystemError)))
      else Outcome(s, Render(LoginView, Some(WrongPassword)))
  }

  /** `getVerify2FA`: only a session holding `tempUserId` sees the OTP form. */
  function GetVerify2FA(s: Session): (o: Outcome)
    ensures o.session == s
    ensures o.response == (if PresentId(s.tempUserId) then Render(VerifyView, None) else Redirect(LoginPath))
  {
    if !PresentId(s.tempUserId) then Outcome(s, Redirect(LoginPath)) else Outcome(s, Render(VerifyView, None))
  }

  /**
   * `postVerify2FA` with the submitted OTP (absent when the form field is
   * missing, and then never equal to the stored string) at time `now`.
   */
  function PostVerify2FA(s: Session, submitted: Option<string>, now: int): (o: Outcome)
    ensures !AwaitingOtp(s) ==> o == Outcome(s, Redirect(LoginPath))
    ensures AwaitingOtp(s) && Expired(s.otpTime, now) ==> o == Outcome(Empty, Render(LoginView, Some(OtpExpired)))
    ensures AwaitingOtp(s) && !Expired(s.otpTime, now) && submitted != s.otp
        ==> o == Outcome(s, Render(VerifyView, Some(OtpMismatch)))
    ensures AwaitingOtp(s) && !Expired(s.otpTime, now) && submitted == s.otp
        ==> o == Outcome(Session(s.tempUserId, None, None, None), Redirect(NewsPath))
  {
    if !PresentId(s.tempUserId) || !PresentText(s.otp) then Outcome(s, Redirect(LoginPath))
    else if Expired(s.otpTime, now) then Outcome(Empty, Render(LoginView, Some(OtpExpired)))
    else if submitted == s.otp then
      Outcome(s.(userId := s.tempUserId, tempUserId := None, otp := None, otpTime := None), Redirect(NewsPath))
    else Outcome(s, Render(VerifyView, Some(OtpMismatch)))
  }

  /** `logout`: the session is destroyed. */
  function Logout(s: Session): (o: Outcome)
    ensures o.session == Empty && !SignedIn(o.session) && !AwaitingOtp(o.session)
    ensures o.response == Redirect(LoginPath)
  {
    Outcome(Empty, Redirect(LoginPath))
  }

  /** `requireLogin` of middleware/auth.js: pass on exactly when signed in. */
  function RequireLogin(s: Session): (o: Outcome)
    ensures o.session == s
    ensures o.response.Next? <==> SignedIn(s)
    ensures !SignedIn(s) ==> o.response == Redirect(LoginPath)
  {
    if SignedIn(s) then Outcome(s, Next) else Outcome(s, Redirect(LoginPath))
  }

  // ---------------------------------------------------------------------------
  // Requests as events, and sequences of them

  datatype Event =
    | GetLoginRequest
    | PostLoginRequest(lookupFails: bool, username: string, inputHash: string, draw: nat, now: int, mailSent: bool)
    | GetVerifyRequest
    | PostVerifyRequest(submitted: Option<string>, now: int)
    | LogoutRequest
    | GuardedRequest

  /** A well-formed event: the random draw lies in its range. */
  predicate ValidEvent(e: Event) {
    e.PostLoginRequest? ==> e.draw < 900000
  }

  function Step(users: map<string, User>, s: Session, e: Event): Outcome
    requires ValidEvent(e)
  {
    match e
    case GetLoginRequest => GetLogin(s)
    case PostLoginRequest(fails, name, hash, draw, now, sent) => PostLogin(s, users, fails, name, hash, draw, now, sent)
    case GetVerifyRequest => GetVerify2FA(s)
    case PostVerifyRequest(submitted, now) => PostVerify2FA(s, submitted, now)
    case LogoutRequest => Logout(s)
    case GuardedRequest => RequireLogin(s)
  }

  /** The session after the events, in order, starting from `s`. */
  function Run(users: map<string, User>, s: Session, events: seq<Event>): Session
    requires forall i :: 0 <= i < |events| ==> ValidEvent(events[i])
  {
    if events == [] then s
    else Step(users, Run(users, s, events[..|events| - 1]), events[|events| - 1]).session
  }

  /** The event confirms the OTP the session awaits, in time. */
  predicate Confirms(s: Session, e: Event) {
    && e.PostVerifyRequest?
    && AwaitingOtp(s)
    && !Expired(s.otpTime, e.now)
    && e.submitted == s.otp
  }

  // ---------------------------------------------------------------------------
  // Properties

  /**
   * The provisional fields come and go together, and a stored OTP is always
   * six decimal digits whose value lies in 100000..999999.
   */
  predicate WellFormed(s: Session) {
    && (s.tempUserId.Some? <==> s.otp.Some?)
    && (s.otp.Some? <==> s.otpTime.Some?)
    && (s.otp.Some? ==> |s.otp.value| == 6 && AllDigits(s.otp.value) && 100000 <= ValueOf(s.otp.value) <= 999999)
  }

  /** Every handler keeps a well-formed session well-formed. */
  lemma StepKeepsWellFormed(users: map<string, User>, s: Session, e: Event)
    requires ValidEvent(e) && WellFormed(s)
    ensures WellFormed(Step(users, s, e).session)
  {
  }

  /**
   * `userId` changes in exactly two ways: a confirmed OTP copies
   * `tempUserId` into it, and destroying the session clears it.
   */
  lemma StepUserId(users: map<string, User>, s: Session, e: Event)
    requires ValidEvent(e)
    ensures var s' := Step(users, s, e).session;
      && (Confirms(s, e) ==> s'.userId == s.tempUserId && SignedIn(s'))
      && (!Confirms(s, e) ==> s'.userId == s.userId || s' == Empty)
  {
  }

  /**
   * Whoever is signed in at the end of a run from a session nobody was
   * signed in to confirmed an OTP along the way, and is the user that OTP
   * was issued for.
   */
  lemma {:induction false} SignInNeedsOtp(users: map<string, User>, s: Session, events: seq<Event>)
    requires forall i :: 0 <= i < |events| ==> ValidEvent(events[i])
    requires !SignedIn(s)
    requires SignedIn(Run(users, s, events))
    ensures exists i ::
      && 0 <= i < |events|
      && Confirms(Run(users, s, events[..i]), events[i])
      && Run(users, s, events).userId == Run(users, s, events[..i]).tempUserId
  {
    var n := |events| - 1;
    var prefix := events[..n];
    var before := Run(users, s, prefix);
    StepUserId(users, before, events[n]);
    if Confirms(before, events[n]) {
      assert events[..n] == prefix;
    } else {
      SignInNeedsOtp(users, s, prefix);
      var i :|
        && 0 <= i < |prefix|
        && Confirms(Run(users, s, prefix[..i]), prefix[i])
        && before.userId == Run(users, s, prefix[..i]).tempUserId;
      assert prefix[..i] == events[..i];
    }
  }

  /** A confirmed OTP cannot be confirmed again: the resubmission is sent to sign in. */
  lemma OtpSingleUse(s: Session, submitted: Option<string>, now: int, later: int)
    requires AwaitingOtp(s) && !Expired(s.otpTime, now) && submitted == s.otp
    ensures var first := PostVerify2FA(s, submitted, now);
      && first.response == Redirect(NewsPath)
      && PostVerify2FA(first.session, submitted, later) == Outcome(first.session, Redirect(LoginPath))
  {
  }

  /**
   * The five-minute window is closed at its end: an OTP exactly 300000 ms
   * old is still accepted, one a millisecond older is refused whatever was
   * submitted and ends the session.
   */
  lemma ExpiryBoundary(s: Session, submitted: Option<string>, t: int)
    requires AwaitingOtp(s) && s.otpTime == Some(t)
    ensures submitted == s.otp ==> SignedIn(PostVerify2FA(s, submitted, t + 300000).session)
    ensures PostVerify2FA(s, submitted, t + 300001) == Outcome(Empty, Render(LoginView, Some(OtpExpired)))
  {
  }

  /** A wrong OTP in time changes nothing, so the right one still works afterwards. */
  lemma WrongOtpKeepsSession(s: Session, wrong: Option<string>, now: int, later: int)
    requires AwaitingOtp(s) && !Expired(s.otpTime, now) && wrong != s.otp
    requires !Expired(s.otpTime, later)
    ensures var first := PostVerify2FA(s, wrong, now);
      && first == Outcome(s, Render(VerifyView, Some(OtpMismatch)))
      && PostVerify2FA(first.session, s.otp, later).response == Redirect(NewsPath)
  {
  }

  /**
   * A failed mail leaves the provisional fields in place: the OTP that was
   * never delivered can still be confirmed within the window.
   */
  lemma MailFailureKeepsOtp(
    users: map<string, User>, s: Session, username: string, inputHash: string,
    draw: nat, now: int)
    requires draw < 900000
    requires username in users && inputHash == users[username].passwordHash
    requires users[username].id != 0
    ensures var o := PostLogin(s, users, false, username, inputHash, draw, now, false);
      && o.response == Render(LoginView, Some(SystemError))
      && AwaitingOtp(o.session)
      && PostVerify2FA(o.session, Some(Otp(draw)), now).session.userId == Some(users[username].id)
  {
  }

  /** A session holding only the provisional fields does not pass the guard. */
  lemma ProvisionalRejected(s: Session)
    requires AwaitingOtp(s) && s.userId.None?
    ensures RequireLogin(s) == Outcome(s, Redirect(LoginPath))
  {
  }

  /**
   * A right password opens the OTP form, except for the user id 0, which
   * JavaScript reads as false: that user is sent back to sign in.
   */
  lemma LoginOpensVerifyForm(
    users: map<string, User>, s: Session, username: string, inputHash: string,
    draw: nat, now: int, mailSent: bool)
    requires draw < 900000
    requires username in users && inputHash == users[username].passwordHash
    ensures var o := PostLogin(s, users, false, username, inputHash, draw, now, mailSent);
      GetVerify2FA(o.session).response
        == if users[username].id != 0 then Render(VerifyView, None) else Redirect(LoginPath)
  {
  }

  /** Once the OTP is confirmed, the login page sends the administrator on and the guard lets them through. */
  lemma ConfirmedPassesGuard(s: Session, now: int)
    requires AwaitingOtp(s) && !Expired(s.otpTime, now)
    ensures var o := PostVerify2FA(s, s.otp, now);
      && GetLogin(o.session).response == Redirect(NewsPath)
      && RequireLogin(o.session).response == Next
  {
  }
}

=== FILE: common.dfy ===
/**
 * Values shared by every component: an optional value for the source's
 * `undefined`/`null`, JavaScript's truthiness of the values the handlers
 * test with `if (!x)`, and the row selection of a SQL `WHERE`.
 */
module Common {

  /** A value that may be absent (`undefined` or `null` in the source). */
  datatype Option<T> = None | Some(value: T)

  /** The outcome of a step that can fail with an error of type `E`. */
  datatype Result<T, E> = Ok(value: T) | Err(error: E)

  /** `!!x` for an optional string: `undefined`, `null` and `''` are falsy. */
  predicate PresentText(o: Option<string>) {
    o.Some? && o.value != ""
  }

  /** `!!x` for an optional numeric id: `undefined` and `0` are falsy. */
  predicate PresentId(o: Option<int>) {
    o.Some? && o.value != 0
  }

  /** `WHERE p` over a table: the rows satisfying `p`, in table order. */
  function Where<T>(p: T -> bool, rows: seq<T>): (r: seq<T>)
    ensures forall i :: 0 <= i < |r| ==> p(r[i]) && r[i] in rows
    ensures forall i :: 0 <= i < |rows| ==> p(rows[i]) ==> rows[i] in r
    ensures |r| <= |rows|
  {
    if rows == [] then []
    else (if p(rows[0]) then [rows[0]] else []) + Where(p, rows[1..])
  }

  /** `WHERE p` keeps each row satisfying `p` as often as the table holds it, and no other row. */
  lemma {:induction false} WhereCount<T>(p: T -> bool, rows: seq<T>, x: T)
    ensures multiset(Where(p, rows))[x] == if p(x) then multiset(rows)[x] else 0
    decreases |rows|
  {
    if rows != [] {
      WhereCount(p, rows[1..], x);
      assert rows == [rows[0]] + rows[1..];
    }
  }
}

=== FILE: news_controller.dfy ===
/**
 * The admin handlers of controllers/newsController.js that change the
 * store: `postUpload`, `postUpdate`, `deleteNews` and `deleteFile`.
 *
 * The database is the two tables of the model modules. Which awaited call
 * throws is a parameter, `failAt`; the calls after it never run, and a step
 * the handler does not take cannot throw. The filesystem is the set of
 * paths that exist and the set of paths whose unlink was requested. Every
 * unlink is fire-and-forget, so a request does not change what a later
 * `existsSync` in the same handler sees. Paths are relative to the
 * project root, where `uploads/` lives.
 *
 * `createNews` and `updateNews` ignore the connection they are handed and
 * write through the pool, so a rollback does not undo them; only the
 * attachment writes run inside the transaction.
 */
module NewsController {
  import opened Common
  import opened Text
  import Slug
  import N = NewsModel
  import A = AttachmentModel

  datatype Db = Db(news: N.NewsTable, attachments: A.AttachmentTable)

  predicate Valid(db: Db) {
    N.Valid(db.news) && A.Valid(db.attachments)
  }

  datatype Disk = Disk(present: set<string>, unlinked: set<string>)

  /** The awaited calls of the handlers, any of which may throw. */
  datatype Step =
    | GetConnection
    | BeginTransaction
    | WriteNews
    | ReadAttachments
    | DeleteAttachments
    | InsertAttachments
    | Commit

  /** What became of the transaction connection; `finally` releases every one that was opened. */
  datatype Connection = NotOpened | CommittedAndReleased | RolledBackAndReleased

  datatype Response =
    | Redirect(location: string)
    | Plain(status: int, body: string)
    | Json(status: int, success: bool, message: Option<string>)

  datatype Outcome = Outcome(db: Db, disk: Disk, response: Response, connection: Connection)

  /** A file multer wrote to `uploads/<rel>`, with its part's MIME type and original name. */
  datatype Uploaded = Uploaded(rel: string, mimetype: string, originalName: string)

  /** The create form; a missing or empty text field is `None`. */
  datatype UploadForm = UploadForm(
    title: Option<string>,
    category: string,
    youtubeLink: string,
    start: Option<int>,
    end: Option<int>)

  /** The edit form; nothing in it is checked before it is written. */
  datatype UpdateForm = UpdateForm(
    title: Option<string>,
    category: string,
    youtubeLink: string,
    start: int,
    end: int)

  /** `files_to_delete`: missing or empty, one id, or an array of ids. */
  datatype Selection = NoneSelected | One(id: int) | Many(ids: seq<int>)

  const UploadDone := "/admin/news?success=upload"
  const UpdateDone := "/admin/news?success=update"
  const DeleteDone := "/admin/news?success=delete"
  const MissingFieldsText := "Missing fields."
  const ServerError := "Server Error"
  const DeleteError := "Error deleting news"
  const FileNotFound := "File not found"
  const JsonServerError := "Server error"

  // ---------------------------------------------------------------------------
  // Files and attachment rows

  /** `path.join('uploads', dbPath)`, which is also where the file sits on disk. */
  function DiskPath(f: Uploaded): string {
    "uploads/" + f.rel
  }

  /** `f.mimetype.includes('pdf') ? 'pdf' : 'image'` */
  function TypeOf(mimetype: string): A.FileType {
    if Contains(mimetype, "pdf") then A.Pdf else A.Image
  }

  /** The row an uploaded file becomes. */
  predicate StoredFile(a: A.Attachment, newsId: int, f: Uploaded) {
    && a.newsId == newsId
    && a.filePath == DiskPath(f)
    && (a.fileType == A.Pdf <==> Contains(f.mimetype, "pdf"))
    && a.originalName == f.originalName
  }

  /** The tuples handed to `addAttachments`, one per file, in order. */
  function NewRows(newsId: int, files: seq<Uploaded>): (r: seq<A.NewAttachment>)
    ensures |r| == |files|
    ensures forall k :: 0 <= k < |files| ==>
      var a := r[k];
      StoredFile(A.Attachment(0, a.newsId, a.filePath, a.fileType, a.originalName), newsId, files[k])
  {
    if files == [] then []
    else
      var f := files[0];
      [A.NewAttachment(newsId, DiskPath(f), TypeOf(f.mimetype), f.originalName)] + NewRows(newsId, files[1..])
  }

  function Paths(files: seq<Uploaded>): set<string> {
    set f | f in files :: DiskPath(f)
  }

  /** `allFiles.forEach(f => fs.unlink(f.path, ...))` */
  function UnlinkAll(disk: Disk, files: seq<Uploaded>): Disk {
    disk.(unlinked := disk.unlinked + Paths(files))
  }

  /** The files of these rows that exist. */
  function Existing(disk: Disk, rows: seq<A.Attachment>): set<string> {
    set a | a in rows && a.filePath in disk.present :: a.filePath
  }

  /** The file of one row, when it exists. */
  function UnlinkedFor(disk: Disk, a: A.Attachment): set<string> {
    if a.filePath in disk.present then {a.filePath} else {}
  }

  /** `if (fs.existsSync(fullPath)) fs.unlink(fullPath, ...)` for each row. */
  function UnlinkExisting(disk: Disk, rows: seq<A.Attachment>): Disk {
    disk.(unlinked := disk.unlinked + Existing(disk, rows))
  }

  /** The step that throws, if the handler takes it. */
  function FirstFault(failAt: Option<Step>, runs: set<Step>): (r: Option<Step>)
    ensures r.Some? <==> failAt.Some? && failAt.value in runs
    ensures r.Some? ==> r == failAt
  {
    if failAt.Some? && failAt.value in runs then failAt else None
  }

  /** Only a failing `getConnection` leaves nothing to roll back and release. */
  function ConnectionAfter(step: Step): Connection {
    if step == GetConnection then NotOpened else RolledBackAndReleased
  }

  // ---------------------------------------------------------------------------
  // postUpload

  /** `!title || !start_date || !end_date` */
  predicate MissingFields(form: UploadForm) {
    !PresentText(form.title) || form.start.None? || form.end.None?
  }

  function UploadData(form: UploadForm): N.NewsData
    requires !MissingFields(form)
  {
    N.NewsData(form.title.value, Slug.CreateSlug(form.title), form.category, form.youtubeLink,
      form.start.value, form.end.value)
  }

  /** The calls of a create: the attachment insert only when files came. */
  function UploadSteps(files: seq<Uploaded>): set<Step> {
    {GetConnection, BeginTransaction, WriteNews, Commit} + (if files == [] then {} else {InsertAttachments})
  }

  /** The steps before the news row is written. */
  function BeforeWrite(): set<Step> {
    {GetConnection, BeginTransaction, WriteNews}
  }

  /** The store after a create that commits. */
  function UploadCommit(db: Db, form: UploadForm, files: seq<Uploaded>): (r: Db)
    requires Valid(db) && !MissingFields(form)
    ensures Valid(r)
    ensures UploadStored(db, form, files, r)
  {
    var (news, id) := N.CreateNews(db.news, UploadData(form));
    Db(news, A.AddAttachments(db.attachments, Some(NewRows(id, files))))
  }

  /**
   * One new article with the form's fields, its slug and no views, and after
   * the old attachments one row per file, in order, pointing at it.
   */
  predicate UploadStored(db: Db, form: UploadForm, files: seq<Uploaded>, r: Db)
    requires !MissingFields(form)
  {
    var n, m := |db.news.rows|, |db.attachments.rows|;
    && |r.news.rows| == n + 1 && r.news.rows[..n] == db.news.rows
    && var row := r.news.rows[n];
      && row.id !in N.Ids(db.news.rows)
      && N.DataOf(row) == UploadData(form) && row.slug == Slug.CreateSlug(form.title)
      && row.viewCount == 0
      && |r.attachments.rows| == m + |files| && r.attachments.rows[..m] == db.attachments.rows
      && forall k :: 0 <= k < |files| ==>
        && StoredFile(r.attachments.rows[m + k], row.id, files[k])
        && r.attachments.rows[m + k].id !in A.Ids(db.attachments.rows)
  }

  /** The common shape of a failed create or edit. */
  predicate Failed(disk: Disk, files: seq<Uploaded>, r: Outcome) {
    && r.response == Plain(500, ServerError)
    && r.disk.present == disk.present
    && Paths(files) <= r.disk.unlinked
  }

  /**
   * `postUpload` as written. Without a title or either date it answers 400
   * before opening a connection and leaves the written files in place. A
   * create that commits stores the article and its attachments and
   * redirects. A failure rolls back, requests an unlink of every new file
   * and answers 500; the attachment rows are undone, but a news row written
   * before the failure stays.
   */
  function PostUpload(db: Db, disk: Disk, form: UploadForm, images: seq<Uploaded>, pdfFiles: seq<Uploaded>,
                      failAt: Option<Step>): (r: Outcome)
    requires Valid(db)
    ensures Valid(r.db)
    ensures MissingFields(form) ==> r == Outcome(db, disk, Plain(400, MissingFieldsText), NotOpened)
    ensures !MissingFields(form) && FirstFault(failAt, UploadSteps(images + pdfFiles)).None? ==>
      && r.response == Redirect(UploadDone) && r.connection == CommittedAndReleased && r.disk == disk
      && UploadStored(db, form, images + pdfFiles, r.db)
    ensures !MissingFields(form) && FirstFault(failAt, UploadSteps(images + pdfFiles)).Some? ==>
      && Failed(disk, images + pdfFiles, r)
      && r.disk.unlinked == disk.unlinked + Paths(images + pdfFiles)
      && r.db.attachments == db.attachments
      && (r.connection == NotOpened <==> failAt == Some(GetConnection))
      && (failAt.value in BeforeWrite() ==> r.db.news == db.news)
      && (failAt.value !in BeforeWrite() ==> r.db.news == UploadCommit(db, form, images + pdfFiles).news)
  {
    var files := images + pdfFiles;
    if MissingFields(form) then Outcome(db, disk, Plain(400, MissingFieldsText), NotOpened)
    else
      var committed := UploadCommit(db, form, files);
      match FirstFault(failAt, UploadSteps(files))
      case None => Outcome(committed, disk, Redirect(UploadDone), CommittedAndReleased)
      case Some(step) =>
        var news := if step in BeforeWrite() then db.news else committed.news;
        Outcome(Db(news, db.attachments), UnlinkAll(disk, files), Plain(500, ServerError), ConnectionAfter(step))
  }

  /**
   * `postUpload` with the news insert on the transaction connection, as the
   * handler evidently means it: a failure leaves the store as it was.
   */
  function PostUploadAtomic(db: Db, disk: Disk, form: UploadForm, images: seq<Uploaded>, pdfFiles: seq<Uploaded>,
                            failAt: Option<Step>): (r: Outcome)
    requires Valid(db)
    ensures Valid(r.db)
    ensures MissingFields(form) ==> r == Outcome(db, disk, Plain(400, MissingFieldsText), NotOpened)
    ensures !MissingFields(form) && FirstFault(failAt, UploadSteps(images + pdfFiles)).None? ==>
      && r.response == Redirect(UploadDone) && r.connection == CommittedAndReleased && r.disk == disk
      && UploadStored(db, form, images + pdfFiles, r.db)
    ensures !MissingFields(form) && FirstFault(failAt, UploadSteps(images + pdfFiles)).Some? ==>
      && Failed(disk, images + pdfFiles, r)
      && r.disk.unlinked == disk.unlinked + Paths(images + pdfFiles)
      && r.db == db
  {
    var files := images + pdfFiles;
    if MissingFields(form) then Outcome(db, disk, Plain(400, MissingFieldsText), NotOpened)
    else
      match FirstFault(failAt, UploadSteps(files))
      case None => Outcome(UploadCommit(db, form, files), disk, Redirect(UploadDone), CommittedAndReleased)
      case Some(step) => Outcome(db, UnlinkAll(disk, files), Plain(500, ServerError), ConnectionAfter(step))
  }

  // ---------------------------------------------------------------------------
  // postUpdate

  /** A single value is wrapped into a one-element array. */
  function DeleteIds(s: Selection): (ids: seq<int>)
    ensures s.One? ==> ids == [s.id]
    ensures s.Many? ==> ids == s.ids
    ensures s.NoneSelected? ==> ids == []
  {
    match s
    case NoneSelected => []
    case One(id) => [id]
    case Many(ids) => ids
  }

  function UpdateData(form: UpdateForm): N.NewsData {
    N.NewsData(if form.title.Some? then form.title.value else "", Slug.CreateSlug(form.title), form.category,
      form.youtubeLink, form.start, form.end)
  }

  /**
   * The calls of an edit that reach the database: the selection's read and
   * delete only for a non-empty id list, since both model functions return
   * before querying on an empty one.
   */
  function UpdateSteps(s: Selection, files: seq<Uploaded>): set<Step> {
    {GetConnection, BeginTransaction, WriteNews, Commit}
    + (if DeleteIds(s) == [] then {} else {ReadAttachments, DeleteAttachments})
    + (if files == [] then {} else {InsertAttachments})
  }

  /** The rows picked for deletion, whichever article owns them. */
  function Doomed(db: Db, s: Selection): seq<A.Attachment> {
    A.GetByIds(db.attachments, A.List(DeleteIds(s)))
  }

  /** The store after an edit that commits. */
  function UpdateCommit(db: Db, newsId: int, form: UpdateForm, s: Selection, files: seq<Uploaded>): (r: Db)
    requires Valid(db)
    ensures Valid(r)
    ensures UpdateStored(db, newsId, form, s, files, r)
  {
    var ids := A.List(DeleteIds(s));
    var kept := A.DeleteByIds(db.attachments, ids);
    assert A.Valid(kept) by {
      A.DeleteByIdsKeepsValid(db.attachments, ids);
    }
    var news := N.UpdateNews(db.news, newsId, UpdateData(form));
    assert N.Valid(news) by {
      N.OperationsKeepValid(db.news, newsId, UpdateData(form));
    }
    var added := A.AddAttachments(kept, Some(NewRows(newsId, files)));
    assert AttachmentsReplaced(db.attachments, newsId, s, files, added) by {
      ReplaceAttachments(db.attachments, newsId, s, files);
    }
    Db(news, added)
  }

  /** The selected rows go, the others stay, and the new files follow with fresh ids. */
  lemma ReplaceAttachments(t: A.AttachmentTable, newsId: int, s: Selection, files: seq<Uploaded>)
    requires A.Valid(t)
    ensures var kept := A.DeleteByIds(t, A.List(DeleteIds(s)));
      A.Valid(kept) && AttachmentsReplaced(t, newsId, s, files, A.AddAttachments(kept, Some(NewRows(newsId, files))))
  {
    var kept := A.DeleteByIds(t, A.List(DeleteIds(s)));
    A.DeleteByIdsKeepsValid(t, A.List(DeleteIds(s)));
    var added := A.AddAttachments(kept, Some(NewRows(newsId, files)));
    var m := |added.rows| - |files|;
    assert added.rows[..m] == kept.rows;
    forall k | 0 <= k < |files|
      ensures StoredFile(added.rows[m + k], newsId, files[k]) && added.rows[m + k].id >= t.nextId
    {
      var a := added.rows[m + k];
      assert A.NewAttachment(a.newsId, a.filePath, a.fileType, a.originalName) == NewRows(newsId, files)[k];
    }
  }

  /**
   * The article's six fields are overwritten and the rest of the table kept;
   * every selected attachment is gone, whoever owns it, the others stay,
   * and one row per new file follows them.
   */
  ghost predicate UpdateStored(db: Db, newsId: int, form: UpdateForm, s: Selection, files: seq<Uploaded>, r: Db) {
    && |r.news.rows| == |db.news.rows|
    && (forall i :: 0 <= i < |db.news.rows| ==>
        var old_, new_ := db.news.rows[i], r.news.rows[i];
        if old_.id == newsId then
          N.DataOf(new_) == UpdateData(form) && new_.slug == Slug.CreateSlug(form.title)
          && new_.id == old_.id && new_.viewCount == old_.viewCount
        else new_ == old_)
    && AttachmentsReplaced(db.attachments, newsId, s, files, r.attachments)
  }

  ghost predicate AttachmentsReplaced(t: A.AttachmentTable, newsId: int, s: Selection, files: seq<Uploaded>,
                                      r: A.AttachmentTable) {
    var m := |r.rows| - |files|;
    && 0 <= m
    && (forall a :: a in r.rows[..m] <==> a in t.rows && a.id !in DeleteIds(s))
    && forall k :: 0 <= k < |files| ==> StoredFile(r.rows[m + k], newsId, files[k]) && r.rows[m + k].id >= t.nextId
  }

  /**
   * `postUpdate` as written. An edit that commits stores the new fields and
   * files, drops the selected rows and requests an unlink of each of their
   * files that exists. A failure rolls back the attachment writes and
   * requests an unlink of every new file, but a news update already made
   * stays, and so do the unlinks of the old files when the failure comes
   * after them.
   */
  function PostUpdate(db: Db, disk: Disk, newsId: int, form: UpdateForm, s: Selection,
                      images: seq<Uploaded>, pdfFiles: seq<Uploaded>, failAt: Option<Step>): (r: Outcome)
    requires Valid(db)
    ensures Valid(r.db)
    ensures FirstFault(failAt, UpdateSteps(s, images + pdfFiles)).None? ==>
      && r.response == Redirect(UpdateDone) && r.connection == CommittedAndReleased
      && UpdateStored(db, newsId, form, s, images + pdfFiles, r.db)
      && r.disk == disk.(unlinked := disk.unlinked + Existing(disk, Doomed(db, s)))
    ensures FirstFault(failAt, UpdateSteps(s, images + pdfFiles)).Some? ==>
      && Failed(disk, images + pdfFiles, r)
      && r.db.attachments == db.attachments
      && (r.connection == NotOpened <==> failAt == Some(GetConnection))
      && (failAt.value in BeforeWrite() ==> r.db.news == db.news)
      && (failAt.value !in BeforeWrite() ==> r.db.news == N.UpdateNews(db.news, newsId, UpdateData(form)))
      && r.disk.unlinked == disk.unlinked + Paths(images + pdfFiles)
           + (if failAt.value in {InsertAttachments, Commit} then Existing(disk, Doomed(db, s)) else {})
  {
    var files := images + pdfFiles;
    var committed := UpdateCommit(db, newsId, form, s, files);
    var cleared := UnlinkExisting(disk, Doomed(db, s));
    match FirstFault(failAt, UpdateSteps(s, files))
    case None => Outcome(committed, cleared, Redirect(UpdateDone), CommittedAndReleased)
    case Some(step) =>
      var news := if step in BeforeWrite() then db.news else committed.news;
      var disk' := if step in {InsertAttachments, Commit} then cleared else disk;
      Outcome(Db(news, db.attachments), UnlinkAll(disk', files), Plain(500, ServerError), ConnectionAfter(step))
  }

  /**
   * `postUpdate` with the news update on the transaction and the old files
   * unlinked only once the commit succeeds: a failure leaves the store and
   * the old files as they were.
   */
  function PostUpdateAtomic(db: Db, disk: Disk, newsId: int, form: UpdateForm, s: Selection,
                            images: seq<Uploaded>, pdfFiles: seq<Uploaded>, failAt: Option<Step>): (r: Outcome)
    requires Valid(db)
    ensures Valid(r.db)
    ensures FirstFault(failAt, UpdateSteps(s, images + pdfFiles)).None? ==>
      && r.response == Redirect(UpdateDone) && r.connection == CommittedAndReleased
      && UpdateStored(db, newsId, form, s, images + pdfFiles, r.db)
      && r.disk == disk.(unlinked := disk.unlinked + Existing(disk, Doomed(db, s)))
    ensures FirstFault(failAt, UpdateSteps(s, images + pdfFiles)).Some? ==>
      && Failed(disk, images + pdfFiles, r)
      && r.disk.unlinked == disk.unlinked + Paths(images + pdfFiles)
      && r.db == db
  {
    var files := images + pdfFiles;
    match FirstFault(failAt, UpdateSteps(s, files))
    case None => Outcome(UpdateCommit(db, newsId, form, s, files), UnlinkExisting(disk, Doomed(db, s)),
      Redirect(UpdateDone), CommittedAndReleased)
    case Some(step) => Outcome(db, UnlinkAll(disk, files), Plain(500, ServerError), ConnectionAfter(step))
  }

  // ---------------------------------------------------------------------------
  // deleteNews and deleteFile

  /**
   * `deleteNews`: reads the article's attachments, deletes the news row and
   * requests an unlink of each of their files that exists. No statement
   * touches the attachment rows. Either failure answers 500 with nothing
   * changed.
   */
  function DeleteNews(db: Db, disk: Disk, newsId: int, failAt: Option<Step>): (r: Outcome)
    requires Valid(db)
    ensures Valid(r.db)
    ensures r.connection == NotOpened && r.disk.present == disk.present
    ensures FirstFault(failAt, {ReadAttachments, WriteNews}).Some? ==>
      r.db == db && r.disk == disk && r.response == Plain(500, DeleteError)
    ensures FirstFault(failAt, {ReadAttachments, WriteNews}).None? ==>
      && r.response == Redirect(DeleteDone)
      && newsId !in N.Ids(r.db.news.rows)
      && (forall n :: n in db.news.rows && n.id != newsId ==> n in r.db.news.rows)
      && (forall n :: n in r.db.news.rows ==> n in db.news.rows)
      && r.db.attachments == db.attachments
      && (forall p :: p in r.disk.unlinked <==>
            p in disk.unlinked
            || exists a :: a in db.attachments.rows && a.newsId == newsId && a.filePath == p && p in disk.present)
  {
    match FirstFault(failAt, {ReadAttachments, WriteNews})
    case Some(_) => Outcome(db, disk, Plain(500, DeleteError), NotOpened)
    case None =>
      var files := A.GetByNewsId(db.attachments, newsId);
      assert N.Valid(N.DeleteNews(db.news, newsId)) by {
        N.DeleteKeepsValid(db.news, newsId);
      }
      Outcome(Db(N.DeleteNews(db.news, newsId), db.attachments), UnlinkExisting(disk, files),
        Redirect(DeleteDone), NotOpened)
  }

  /**
   * `deleteFile`: an id with no row answers 404 and changes nothing; a known
   * id loses exactly its rows, the file of the first is unlinked if it
   * exists, and the answer is `{ success: true }`. A failure answers 500.
   */
  function DeleteFile(db: Db, disk: Disk, attachmentId: int, failAt: Option<Step>): (r: Outcome)
    requires Valid(db)
    ensures Valid(r.db)
    ensures r.connection == NotOpened && r.disk.present == disk.present && r.db.news == db.news
    ensures r.response.Json?
    ensures failAt == Some(ReadAttachments) ==> r == Outcome(db, disk, Json(500, false, Some(JsonServerError)), NotOpened)
    ensures failAt == Some(DeleteAttachments) && attachmentId in A.Ids(db.attachments.rows) ==>
      r == Outcome(db, disk, Json(500, false, Some(JsonServerError)), NotOpened)
    ensures failAt != Some(ReadAttachments) ==>
      (r.response == Json(404, false, Some(FileNotFound)) <==> attachmentId !in A.Ids(db.attachments.rows))
    ensures r.response.status != 200 ==> r.db == db && r.disk == disk
    ensures r.response == Json(200, true, None) <==>
      failAt != Some(ReadAttachments) && failAt != Some(DeleteAttachments) && attachmentId in A.Ids(db.attachments.rows)
    ensures r.response.status == 200 ==>
      && (forall a :: a in r.db.attachments.rows <==> a in db.attachments.rows && a.id != attachmentId)
      && exists a :: a in db.attachments.rows && a.id == attachmentId && r.disk.unlinked == disk.unlinked + UnlinkedFor(disk, a)
  {
    if failAt == Some(ReadAttachments) then Outcome(db, disk, Json(500, false, Some(JsonServerError)), NotOpened)
    else
      var found := A.GetByIds(db.attachments, A.List([attachmentId]));
      if found == [] then
        Outcome(db, disk, Json(404, false, Some(FileNotFound)), NotOpened)
      else
        var file := found[0];
        assert attachmentId in A.Ids(db.attachments.rows) by {
          assert file in found;
          A.IdOfRow(db.attachments.rows, file);
        }
        if failAt == Some(DeleteAttachments) then Outcome(db, disk, Json(500, false, Some(JsonServerError)), NotOpened)
        else RemoveFile(db, disk, file)
  }

  /** The row of a found file deleted by its id, and its file unlinked if it exists. */
  function RemoveFile(db: Db, disk: Disk, file: A.Attachment): (r: Outcome)
    requires Valid(db) && file in db.attachments.rows
    ensures Valid(r.db) && r.db.news == db.news && r.disk.present == disk.present
    ensures r.response == Json(200, true, None) && r.connection == NotOpened
    ensures forall a :: a in r.db.attachments.rows <==> a in db.attachments.rows && a.id != file.id
    ensures r.disk.unlinked == disk.unlinked + UnlinkedFor(disk, file)
  {
    var ids := A.List([file.id]);
    assert A.Valid(A.DeleteByIds(db.attachments, ids)) by {
      A.DeleteByIdsKeepsValid(db.attachments, ids);
    }
    assert UnlinkExisting(disk, [file]).unlinked == disk.unlinked + UnlinkedFor(disk, file);
    Outcome(Db(db.news, A.DeleteByIds(db.attachments, ids)), UnlinkExisting(disk, [file]), Json(200, true, None), NotOpened)
  }

  // ---------------------------------------------------------------------------
  // Properties relating the handlers and the tables

  /** A committed create can be read back by its id, with the slug of its title. */
  lemma UploadThenGet(db: Db, disk: Disk, form: UploadForm, images: seq<Uploaded>, pdfFiles: seq<Uploaded>)
    requires Valid(db) && !MissingFields(form)
    ensures var r := PostUpload(db, disk, form, images, pdfFiles, None);
      var row := r.db.news.rows[|db.news.rows|];
      && N.GetNewsById(r.db.news, row.id) == Some(row)
      && row.slug == Slug.CreateSlug(form.title)
      && N.GetNewsById(db.news, row.id) == None
  {
    var r := PostUpload(db, disk, form, images, pdfFiles, None);
    var row := r.db.news.rows[|db.news.rows|];
    assert row in r.db.news.rows;
    N.UniqueLookup(r.db.news.rows, row);
  }

  /**
   * As written, a create whose attachment insert fails answers 500 but
   * leaves the article in the table, without its attachments.
   */
  lemma UploadFaultKeepsNews(db: Db, disk: Disk, form: UploadForm, images: seq<Uploaded>, pdfFiles: seq<Uploaded>)
    requires Valid(db) && !MissingFields(form) && images + pdfFiles != []
    ensures var r := PostUpload(db, disk, form, images, pdfFiles, Some(InsertAttachments));
      && r.response == Plain(500, ServerError)
      && |r.db.news.rows| == |db.news.rows| + 1
      && N.DataOf(r.db.news.rows[|db.news.rows|]) == UploadData(form)
      && r.db.attachments == db.attachments
  {
    assert InsertAttachments in UploadSteps(images + pdfFiles);
  }

  /** The corrected create differs from the one as written only when a failure follows the news insert. */
  lemma UploadAtomicAgrees(db: Db, disk: Disk, form: UploadForm, images: seq<Uploaded>, pdfFiles: seq<Uploaded>,
                           failAt: Option<Step>)
    requires Valid(db)
    ensures var r, q := PostUpload(db, disk, form, images, pdfFiles, failAt), PostUploadAtomic(db, disk, form, images, pdfFiles, failAt);
      r != q <==>
        && !MissingFields(form) && FirstFault(failAt, UploadSteps(images + pdfFiles)).Some?
        && failAt.value !in BeforeWrite()
  {
  }

  /** After a committed edit the article reads back with the form's fields and its old view count. */
  lemma UpdateThenGet(db: Db, disk: Disk, newsId: int, form: UpdateForm, s: Selection,
                      images: seq<Uploaded>, pdfFiles: seq<Uploaded>)
    requires Valid(db) && newsId in N.Ids(db.news.rows)
    ensures var r := PostUpdate(db, disk, newsId, form, s, images, pdfFiles, None);
      var got := N.GetNewsById(r.db.news, newsId);
      && got.Some? && N.DataOf(got.value) == UpdateData(form)
      && got.value.slug == Slug.CreateSlug(form.title)
      && got.value.viewCount == N.GetNewsById(db.news, newsId).value.viewCount
  {
    N.UpdateThenGet(db.news, newsId, UpdateData(form));
  }

  /** The selected ids are gone after a committed edit, whichever article they belonged to, and the other rows stay. */
  lemma UpdateDeletesSelection(db: Db, disk: Disk, newsId: int, form: UpdateForm, s: Selection,
                               images: seq<Uploaded>, pdfFiles: seq<Uploaded>)
    requires Valid(db)
    ensures var r := PostUpdate(db, disk, newsId, form, s, images, pdfFiles, None);
      forall a :: a in db.attachments.rows ==> (a in r.db.attachments.rows <==> a.id !in DeleteIds(s))
  {
    var rows := PostUpdate(db, disk, newsId, form, s, images, pdfFiles, None).db.attachments.rows;
    var m := |rows| - |images + pdfFiles|;
    forall a | a in db.attachments.rows && a.id !in DeleteIds(s) ensures a in rows {
      assert a in rows[..m];
    }
  }

  /**
   * As written, an edit that selects an existing file for deletion and then
   * fails on the attachment insert keeps the row, through the rollback, but
   * has already asked for its file to be unlinked.
   */
  lemma UpdateFaultUnlinksKeptFile(db: Db, disk: Disk, newsId: int, form: UpdateForm, a: A.Attachment,
                                   images: seq<Uploaded>, pdfFiles: seq<Uploaded>)
    requires Valid(db) && a in db.attachments.rows && a.filePath in disk.present
    requires images + pdfFiles != []
    ensures var r := PostUpdate(db, disk, newsId, form, One(a.id), images, pdfFiles, Some(InsertAttachments));
      && r.response == Plain(500, ServerError)
      && a in r.db.attachments.rows
      && a.filePath in r.disk.unlinked
  {
    assert InsertAttachments in UpdateSteps(One(a.id), images + pdfFiles);
    assert a in Doomed(db, One(a.id));
  }

  /** The corrected edit keeps the same row's file: only the new files are unlinked on failure. */
  lemma UpdateAtomicKeepsFile(db: Db, disk: Disk, newsId: int, form: UpdateForm, a: A.Attachment,
                              images: seq<Uploaded>, pdfFiles: seq<Uploaded>, failAt: Option<Step>)
    requires Valid(db) && a in db.attachments.rows
    requires a.filePath !in disk.unlinked && a.filePath !in Paths(images + pdfFiles)
    ensures var r := PostUpdateAtomic(db, disk, newsId, form, One(a.id), images, pdfFiles, failAt);
      r.response.Plain? ==> a in r.db.attachments.rows && a.filePath !in r.disk.unlinked
  {
  }

  /** The corrected edit differs from the one as written only when it fails. */
  lemma UpdateAtomicAgrees(db: Db, disk: Disk, newsId: int, form: UpdateForm, s: Selection,
                           images: seq<Uploaded>, pdfFiles: seq<Uploaded>, failAt: Option<Step>)
    requires Valid(db)
    requires FirstFault(failAt, UpdateSteps(s, images + pdfFiles)).None?
    ensures PostUpdate(db, disk, newsId, form, s, images, pdfFiles, failAt)
         == PostUpdateAtomic(db, disk, newsId, form, s, images, pdfFiles, failAt)
  {
  }

  /**
   * After a delete the article is gone and every other one reads back as
   * before; its attachment rows are still there for the schema to cascade.
   */
  lemma DeleteNewsThenGet(db: Db, disk: Disk, newsId: int)
    requires Valid(db)
    ensures var r := DeleteNews(db, disk, newsId, None);
      && N.GetNewsById(r.db.news, newsId) == None
      && (forall j :: j != newsId ==> N.GetNewsById(r.db.news, j) == N.GetNewsById(db.news, j))
      && A.GetByNewsId(r.db.attachments, newsId) == A.GetByNewsId(db.attachments, newsId)
  {
    N.DeleteThenGet(db.news, newsId);
  }

  /** After deleting a file its id finds nothing, and a second delete answers 404. */
  lemma DeleteFileTwice(db: Db, disk: Disk, attachmentId: int)
    requires Valid(db)
    ensures var r := DeleteFile(db, disk, attachmentId, None);
      && A.GetByIds(r.db.attachments, A.List([attachmentId])) == []
      && DeleteFile(r.db, r.disk, attachmentId, None).response == Json(404, false, Some(FileNotFound))
  {
    var r := DeleteFile(db, disk, attachmentId, None);
    if attachmentId in A.Ids(db.attachments.rows) {
      A.AbsentId(r.db.attachments.rows, attachmentId);
    }
  }
}

=== FILE: news_model.dfy ===
/**
 * The news table of models/newsModel.js as an in-memory sequence of rows.
 *
 * Dates are integers (milliseconds, or any other monotone encoding); `now`
 * is a parameter standing for SQL's `NOW()`. Ids come from an
 * auto-increment counter, as MySQL's `AUTO_INCREMENT` hands them out. The
 * queries' `ORDER BY ... DESC` leaves the order of rows with equal keys
 * open; the model sorts stably by inserting from the back, and the
 * properties say only what SQL promises: the rows selected, in
 * non-increasing key order.
 */
module NewsModel {
  import opened Common

  datatype News = News(
    id: int,
    title: string,
    slug: string,
    category: string,
    youtubeLink: string,
    start: int,
    end: int,
    viewCount: int)

  /** The six columns the create and update forms write. */
  datatype NewsData = NewsData(
    title: string,
    slug: string,
    category: string,
    youtubeLink: string,
    start: int,
    end: int)

  datatype NewsTable = NewsTable(rows: seq<News>, nextId: int)

  /** Ids are unique and below the counter, so the next id is fresh. */
  predicate Valid(t: NewsTable) {
    && (forall i :: 0 <= i < |t.rows| ==> t.rows[i].id < t.nextId)
    && DistinctIds(t.rows)
  }

  /** No two rows share an id (the primary key). */
  predicate DistinctIds(rows: seq<News>) {
    forall i, j :: 0 <= i < j < |rows| ==> rows[i].id != rows[j].id
  }

  function Ids(rows: seq<News>): set<int> {
    set i | 0 <= i < |rows| :: rows[i].id
  }

  /** The six form fields of a row. */
  function DataOf(n: News): NewsData {
    NewsData(n.title, n.slug, n.category, n.youtubeLink, n.start, n.end)
  }

  // ---------------------------------------------------------------------------
  // Selection and ordering

  /** Non-increasing by `key`, between neighbours. */
  predicate SortedDesc(key: News -> int, s: seq<News>) {
    forall i :: 0 < i < |s| ==> key(s[i - 1]) >= key(s[i])
  }

  /** Inserts `x` before the first element whose key it reaches. */
  function Insert(key: News -> int, x: News, s: seq<News>): (r: seq<News>)
    ensures multiset(r) == multiset(s) + multiset{x}
    ensures |r| == |s| + 1
    ensures r[0] == x || (s != [] && r[0] == s[0])
  {
    if s == [] then [x]
    else if key(x) >= key(s[0]) then [x] + s
    else
      var rest := Insert(key, x, s[1..]);
      assert s == [s[0]] + s[1..];
      [s[0]] + rest
  }

  /** Inserting into a sorted sequence keeps it sorted. */
  lemma {:induction false} InsertKeepsSorted(key: News -> int, x: News, s: seq<News>)
    requires SortedDesc(key, s)
    ensures SortedDesc(key, Insert(key, x, s))
    decreases |s|
  {
    if s != [] && key(x) < key(s[0]) {
      var tail := s[1..];
      assert SortedDesc(key, tail) by {
        forall i | 0 < i < |tail| ensures key(tail[i - 1]) >= key(tail[i]) {
          assert tail[i - 1] == s[i] && tail[i] == s[i + 1];
        }
      }
      InsertKeepsSorted(key, x, tail);
      var rest := Insert(key, x, tail);
      var r := Insert(key, x, s);
      assert r == [s[0]] + rest;
      forall i | 0 < i < |r| ensures key(r[i - 1]) >= key(r[i]) {
        if i > 1 {
          assert r[i - 1] == rest[i - 2] && r[i] == rest[i - 1];
        }
      }
    }
  }

  /** `ORDER BY key DESC`, by insertion. */
  function SortDesc(key: News -> int, s: seq<News>): (r: seq<News>)
    ensures multiset(r) == multiset(s)
    ensures SortedDesc(key, r)
  {
    if s == [] then []
    else
      assert s == [s[0]] + s[1..];
      var sorted := SortDesc(key, s[1..]);
      InsertKeepsSorted(key, s[0], sorted);
      Insert(key, s[0], sorted)
  }

  function OtherId(id: int): News -> bool {
    (n: News) => n.id != id
  }

  function PublicIn(category: string, now: int): News -> bool {
    (n: News) => IsPublic(category, now, n)
  }

  function ArchivedAt(now: int): News -> bool {
    (n: News) => IsArchived(now, n)
  }

  function StartOf(n: News): int { n.start }
  function EndOf(n: News): int { n.end }

  /**
   * `category = ? AND start_date <= NOW() AND end_date >= NOW()`, with the
   * category compared exactly rather than under the case-folding collation.
   */
  predicate IsPublic(category: string, now: int, n: News) {
    n.category == category && n.start <= now && n.end >= now
  }

  /** `end_date < NOW()` */
  predicate IsArchived(now: int, n: News) {
    n.end < now
  }

  // ---------------------------------------------------------------------------
  // Operations

  /** `getAllNews`: every row, latest start first. */
  function GetAllNews(t: NewsTable): (r: seq<News>)
    ensures multiset(r) == multiset(t.rows)
    ensures SortedDesc(StartOf, r)
  {
    SortDesc(StartOf, t.rows)
  }

  /** `getNewsById`: the first row with that id, or nothing. */
  function GetNewsById(t: NewsTable, id: int): (r: Option<News>)
    ensures r.Some? <==> id in Ids(t.rows)
    ensures r.Some? ==> r.value.id == id && r.value in t.rows
  {
    FirstWithId(t.rows, id)
  }

  function FirstWithId(rows: seq<News>, id: int): (r: Option<News>)
    ensures r.Some? <==> id in Ids(rows)
    ensures r.Some? ==> r.value.id == id && r.value in rows
  {
    if rows == [] then None
    else if rows[0].id == id then Some(rows[0])
    else
      var r := FirstWithId(rows[1..], id);
      assert Ids(rows) == {rows[0].id} + Ids(rows[1..]) by {
        assert forall i :: 0 < i < |rows| ==> rows[i] == rows[1..][i - 1];
      }
      r
  }

  /** `createNews`: appends a row with a fresh id and no views, and returns the id. */
  function CreateNews(t: NewsTable, d: NewsData): (r: (NewsTable, int))
    requires Valid(t)
    ensures Valid(r.0)
    ensures r.1 !in Ids(t.rows)
    ensures r.0.rows == t.rows + [News(r.1, d.title, d.slug, d.category, d.youtubeLink, d.start, d.end, 0)]
  {
    var id := t.nextId;
    var row := News(id, d.title, d.slug, d.category, d.youtubeLink, d.start, d.end, 0);
    (NewsTable(t.rows + [row], t.nextId + 1), id)
  }

  /** Applies `f` to every row with the given id, leaving the others alone. */
  function MapId(rows: seq<News>, id: int, f: News -> News): (r: seq<News>)
    ensures |r| == |rows|
    ensures forall i :: 0 <= i < |rows| ==> r[i] == if rows[i].id == id then f(rows[i]) else rows[i]
  {
    if rows == [] then [] else [if rows[0].id == id then f(rows[0]) else rows[0]] + MapId(rows[1..], id, f)
  }

  function WithData(d: NewsData): News -> News {
    (n: News) => n.(title := d.title, slug := d.slug, category := d.category,
            youtubeLink := d.youtubeLink, start := d.start, end := d.end)
  }

  function Bump(n: News): News {
    n.(viewCount := n.viewCount + 1)
  }

  /** `updateNews`: the six columns of the row with that id are overwritten. */
  function UpdateNews(t: NewsTable, id: int, d: NewsData): (r: NewsTable)
    ensures r.nextId == t.nextId && |r.rows| == |t.rows|
    ensures forall i :: 0 <= i < |t.rows| ==>
      if t.rows[i].id == id
      then DataOf(r.rows[i]) == d && r.rows[i].id == id && r.rows[i].viewCount == t.rows[i].viewCount
      else r.rows[i] == t.rows[i]
  {
    NewsTable(MapId(t.rows, id, WithData(d)), t.nextId)
  }

  /** `deleteNews`: the rows with that id are removed, the others kept. */
  function DeleteNews(t: NewsTable, id: int): (r: NewsTable)
    ensures r.nextId == t.nextId
    ensures id !in Ids(r.rows)
    ensures forall n :: n in t.rows && n.id != id ==> n in r.rows
    ensures forall n :: n in r.rows ==> n in t.rows
  {
    var rows := Where(OtherId(id), t.rows);
    assert id !in Ids(rows);
    NewsTable(rows, t.nextId)
  }

  /** `incrementViewCount`: one more view on the row with that id. */
  function IncrementViewCount(t: NewsTable, id: int): (r: NewsTable)
    ensures r.nextId == t.nextId && |r.rows| == |t.rows|
    ensures forall i :: 0 <= i < |t.rows| ==>
      if t.rows[i].id == id
      then r.rows[i] == t.rows[i].(viewCount := t.rows[i].viewCount + 1)
      else r.rows[i] == t.rows[i]
  {
    NewsTable(MapId(t.rows, id, Bump), t.nextId)
  }

  /** `getPublicNews`: the running articles of a category, latest start first. */
  function GetPublicNews(t: NewsTable, category: string, now: int): (r: seq<News>)
    ensures multiset(r) == multiset(Where(PublicIn(category, now), t.rows))
    ensures forall n :: n in r <==> n in t.rows && IsPublic(category, now, n)
    ensures SortedDesc(StartOf, r)
  {
    var selected := Where(PublicIn(category, now), t.rows);
    var r := SortDesc(StartOf, selected);
    assert forall n :: n in r <==> n in selected by {
      forall n ensures n in r <==> n in selected {
        assert n in r <==> n in multiset(r);
      }
    }
    r
  }

  /** `getArchivedNews`: the ended articles of every category, latest end first. */
  function GetArchivedNews(t: NewsTable, now: int): (r: seq<News>)
    ensures multiset(r) == multiset(Where(ArchivedAt(now), t.rows))
    ensures forall n :: n in r <==> n in t.rows && IsArchived(now, n)
    ensures SortedDesc(EndOf, r)
  {
    var selected := Where(ArchivedAt(now), t.rows);
    var r := SortDesc(EndOf, selected);
    assert forall n :: n in r <==> n in selected by {
      forall n ensures n in r <==> n in selected {
        assert n in r <==> n in multiset(r);
      }
    }
    r
  }

  // ---------------------------------------------------------------------------
  // Properties relating the operations

  /** A row has one id, so lookups find the row `createNews` just wrote. */
  lemma CreateThenGet(t: NewsTable, d: NewsData)
    requires Valid(t)
    ensures var (t', id) := CreateNews(t, d);
      && GetNewsById(t', id) == Some(News(id, d.title, d.slug, d.category, d.youtubeLink, d.start, d.end, 0))
      && forall j :: j != id ==> GetNewsById(t', j) == GetNewsById(t, j)
  {
    var (t', id) := CreateNews(t, d);
    forall j | j != id ensures GetNewsById(t', j) == GetNewsById(t, j) {
      FirstWithIdAppend(t.rows, [t'.rows[|t.rows|]], j);
    }
    FirstWithIdAppend(t.rows, [t'.rows[|t.rows|]], id);
  }

  lemma {:induction false} FirstWithIdAppend(a: seq<News>, b: seq<News>, id: int)
    ensures FirstWithId(a + b, id) == if id in Ids(a) then FirstWithId(a, id) else FirstWithId(b, id)
    decreases |a|
  {
    if a != [] {
      assert (a + b)[1..] == a[1..] + b;
      FirstWithIdAppend(a[1..], b, id);
      assert Ids(a) == {a[0].id} + Ids(a[1..]) by {
        assert forall i :: 0 < i < |a| ==> a[i] == a[1..][i - 1];
      }
    } else {
      assert a + b == b;
    }
  }

  /** Updating, deleting and counting views keep the table valid. */
  lemma OperationsKeepValid(t: NewsTable, id: int, d: NewsData)
    requires Valid(t)
    ensures Valid(UpdateNews(t, id, d))
    ensures Valid(DeleteNews(t, id))
    ensures Valid(IncrementViewCount(t, id))
  {
    DeleteKeepsValid(t, id);
    MapIdKeepsValid(t, id, WithData(d));
    IncrementKeepsValid(t, id);
  }

  /** Counting a view keeps the table valid. */
  lemma IncrementKeepsValid(t: NewsTable, id: int)
    requires Valid(t)
    ensures Valid(IncrementViewCount(t, id))
  {
    MapIdKeepsValid(t, id, Bump);
  }

  lemma MapIdKeepsValid(t: NewsTable, id: int, f: News -> News)
    requires Valid(t)
    requires forall n :: f(n).id == n.id
    ensures Valid(NewsTable(MapId(t.rows, id, f), t.nextId))
  {
    var rows := MapId(t.rows, id, f);
    assert forall i :: 0 <= i < |rows| ==> rows[i].id == t.rows[i].id;
  }

  lemma DeleteKeepsValid(t: NewsTable, id: int)
    requires Valid(t)
    ensures Valid(DeleteNews(t, id))
  {
    var del := DeleteNews(t, id);
    assert forall i :: 0 <= i < |del.rows| ==> del.rows[i] in t.rows;
    WhereKeepsDistinctIds(OtherId(id), t.rows);
  }

  lemma {:induction false} WhereKeepsDistinctIds(p: News -> bool, rows: seq<News>)
    requires DistinctIds(rows)
    ensures DistinctIds(Where(p, rows))
    decreases |rows|
  {
    if rows != [] {
      var tail := rows[1..];
      assert DistinctIds(tail) by {
        forall i, j | 0 <= i < j < |tail| ensures tail[i].id != tail[j].id {
          assert tail[i] == rows[i + 1] && tail[j] == rows[j + 1];
        }
      }
      WhereKeepsDistinctIds(p, tail);
      if p(rows[0]) {
        PrependDistinct(rows[0], Where(p, tail), tail);
      }
    }
  }

  /** A row whose id no later row repeats can go in front of a filtered tail. */
  lemma PrependDistinct(x: News, rest: seq<News>, tail: seq<News>)
    requires DistinctIds([x] + tail) && DistinctIds(rest)
    requires forall n :: n in rest ==> n in tail
    ensures DistinctIds([x] + rest)
  {
    var r := [x] + rest;
    forall i, j | 0 <= i < j < |r| ensures r[i].id != r[j].id {
      if i == 0 {
        assert r[j] == rest[j - 1] && rest[j - 1] in tail;
        var k :| 0 <= k < |tail| && tail[k] == r[j];
        var full := [x] + tail;
        assert full[0] == x == r[0] && full[k + 1] == r[j];
        assert full[0].id != full[k + 1].id;
      } else {
        assert r[i] == rest[i - 1] && r[j] == rest[j - 1];
      }
    }
  }

  /** After an update the row reads back with the new fields and its old views. */
  lemma UpdateThenGet(t: NewsTable, id: int, d: NewsData)
    requires Valid(t) && id in Ids(t.rows)
    ensures var r := GetNewsById(UpdateNews(t, id, d), id);
      && r.Some? && DataOf(r.value) == d
      && r.value.viewCount == GetNewsById(t, id).value.viewCount
  {
    var k :| 0 <= k < |t.rows| && t.rows[k].id == id;
    assert GetNewsById(t, id) == Some(t.rows[k]) by {
      UniqueLookup(t.rows, t.rows[k]);
    }
    var u := UpdateNews(t, id, d);
    assert GetNewsById(u, id) == Some(u.rows[k]) by {
      MapIdKeepsValid(t, id, WithData(d));
      UniqueLookup(u.rows, u.rows[k]);
    }
  }

  /** With unique ids, a lookup finds the one row carrying the id. */
  lemma UniqueLookup(rows: seq<News>, n: News)
    requires DistinctIds(rows) && n in rows
    ensures FirstWithId(rows, n.id) == Some(n)
  {
    var r := FirstWithId(rows, n.id).value;
    var i :| 0 <= i < |rows| && rows[i] == n;
    var j :| 0 <= j < |rows| && rows[j] == r;
    assert i == j;
  }

  /** After a delete the id is gone and every other row still reads back. */
  lemma DeleteThenGet(t: NewsTable, id: int)
    requires Valid(t)
    ensures GetNewsById(DeleteNews(t, id), id) == None
    ensures forall j :: j != id ==> GetNewsById(DeleteNews(t, id), j) == GetNewsById(t, j)
  {
    var del := DeleteNews(t, id);
    DeleteKeepsValid(t, id);
    forall j | j != id ensures GetNewsById(del, j) == GetNewsById(t, j) {
      var r := GetNewsById(t, j);
      if r.Some? {
        UniqueLookup(del.rows, r.value);
      }
    }
  }

  /** Counting a view of a row makes its id read back with one more view. */
  lemma IncrementThenGet(t: NewsTable, n: News)
    requires Valid(t) && n in t.rows
    ensures GetNewsById(IncrementViewCount(t, n.id), n.id) == Some(n.(viewCount := n.viewCount + 1))
  {
    var k :| 0 <= k < |t.rows| && t.rows[k] == n;
    var inc := IncrementViewCount(t, n.id);
    assert inc.rows[k] == n.(viewCount := n.viewCount + 1);
    MapIdKeepsValid(t, n.id, Bump);
    UniqueLookup(inc.rows, inc.rows[k]);
  }

  /** No article is both running and ended at the same instant. */
  lemma PublicAndArchivedDisjoint(t: NewsTable, category: string, now: int)
    ensures forall n :: n in GetPublicNews(t, category, now) ==> n !in GetArchivedNews(t, now)
  {
  }

  /** A category's running articles are among all articles. */
  lemma PublicWithinAll(t: NewsTable, category: string, now: int)
    ensures forall n :: n in GetPublicNews(t, category, now) ==> n in GetAllNews(t)
  {
    var all := GetAllNews(t);
    forall n | n in GetPublicNews(t, category, now) ensures n in all {
      assert n in multiset(t.rows);
    }
  }
}

=== FILE: public_controller.dfy ===
/**
 * The public read path of controllers/publicController.js: the home page's
 * category and listing, and the decision the detail page makes between
 * not found, a permanent redirect to the canonical address, not yet
 * available and showing the article, with the view counted once per
 * cookie. app.js serves the same detail handler with its own, older slug
 * function; `Revision` picks which.
 *
 * The clock is `now`, the session's user id and the view cookie are
 * parameters, and a failing query is named by `failAt`.
 */
module PublicController {
  import opened Common
  import opened Text
  import Slug
  import N = NewsModel
  import A = AttachmentModel

  /** The four fixed categories of the home page, in the order they are shown. */
  const Categories: seq<string> := [
    "ข่าวสารประชาสัมพันธ์", "ประชุมอบรม / สัมมนา", "ประกาศรับสมัครงาน", "ข่าวสารความรู้"]

  /** `req.query.category || categories[0]`: any non-empty value is taken as it is. */
  function HomeCategory(query: Option<string>): (c: string)
    ensures PresentText(query) ==> c == query.value
    ensures !PresentText(query) ==> c == Categories[0] && c in Categories
  {
    if PresentText(query) then query.value else Categories[0]
  }

  datatype Home = Home(newsList: seq<N.News>, currentCategory: string, categories: seq<string>) | HomeError

  /**
   * `getHome`: the running articles of the chosen category, latest start
   * first, or a 500 when the query fails.
   */
  function GetHome(t: N.NewsTable, query: Option<string>, now: int, fails: bool): (r: Home)
    ensures fails <==> r.HomeError?
    ensures r.Home? ==>
      && r.currentCategory == HomeCategory(query) && r.categories == Categories
      && (forall n :: n in r.newsList <==> n in t.rows && N.IsPublic(r.currentCategory, now, n))
      && (forall n {:trigger multiset(r.newsList)[n]} :: multiset(r.newsList)[n] == if N.IsPublic(r.currentCategory, now, n) then multiset(t.rows)[n] else 0)
      && N.SortedDesc(N.StartOf, r.newsList)
  {
    if fails then HomeError
    else
      var category := HomeCategory(query);
      var list := N.GetPublicNews(t, category, now);
      assert forall n :: multiset(list)[n] == if N.IsPublic(category, now, n) then multiset(t.rows)[n] else 0 by {
        forall n ensures multiset(list)[n] == if N.IsPublic(category, now, n) then multiset(t.rows)[n] else 0 {
          WhereCount(N.PublicIn(category, now), t.rows, n);
        }
      }
      Home(list, category, Categories)
  }

  // ---------------------------------------------------------------------------
  // The detail page

  /** The utils/helpers.js slug of publicController.js, or the older one of app.js. */
  datatype Revision = Modular | Inline

  function Canonical(rev: Revision, title: string): string {
    match rev
    case Modular => Slug.CreateSlug(Some(title))
    case Inline => Slug.CreateLegacySlug(Some(title))
  }

  /** `/news/${newsId}/${correctSlug}` */
  function NewsUrl(id: nat, slug: string): string {
    "/news/" + Decimal(id) + "/" + slug
  }

  /** The awaited queries of the detail page. */
  datatype DetailStep = LookUp | CountView | ReadFiles

  datatype Cookie = Cookie(name: string, value: string, maxAge: int, httpOnly: bool)

  /** `viewed_news_${newsId}`, kept for a day. */
  function ViewCookie(id: nat): Cookie {
    Cookie("viewed_news_" + Decimal(id), "true", 86400000, true)
  }

  datatype DetailResponse =
    | NotFound
    | MovedPermanently(location: string)
    | NotYetAvailable
    | Render(news: N.News, files: seq<A.Attachment>)
    | DetailError

  /** The news table afterwards, the response, and the cookie set on it if any. */
  datatype DetailOutcome = DetailOutcome(news: N.NewsTable, response: DetailResponse, cookie: Option<Cookie>)

  /** Whether the article is hidden: nobody signed in, and it has not started. */
  predicate Unpublished(userId: Option<int>, now: int, n: N.News) {
    !PresentId(userId) && now < n.start
  }

  /**
   * Whether the request is at the canonical address. As written, an absent
   * slug never is; with `emptyOnBareRoute`, the bare `/news/:id` route is
   * the address of an article whose slug is empty.
   */
  predicate AtCanonical(emptyOnBareRoute: bool, requested: Option<string>, slug: string) {
    if emptyOnBareRoute && requested.None? then slug == "" else requested == Some(slug)
  }

  /** The detail handler, with the address comparison chosen by `emptyOnBareRoute`. */
  function Detail(emptyOnBareRoute: bool, t: N.NewsTable, atts: A.AttachmentTable, rev: Revision, id: nat,
                  requested: Option<string>, userId: Option<int>, viewed: bool, now: int,
                  failAt: Option<DetailStep>): (r: DetailOutcome)
    requires N.Valid(t)
    ensures N.Valid(r.news)
  {
    if failAt == Some(LookUp) then DetailOutcome(t, DetailError, None)
    else
      match N.GetNewsById(t, id)
      case None => DetailOutcome(t, NotFound, None)
      case Some(n) =>
        var slug := Canonical(rev, n.title);
        if !AtCanonical(emptyOnBareRoute, requested, slug) then
          DetailOutcome(t, MovedPermanently(NewsUrl(id, slug)), None)
        else if Unpublished(userId, now, n) then DetailOutcome(t, NotYetAvailable, None)
        else if !viewed && failAt == Some(CountView) then DetailOutcome(t, DetailError, None)
        else
          var t' := if viewed then t else N.IncrementViewCount(t, id);
          assert N.Valid(t') by {
            N.IncrementKeepsValid(t, id);
          }
          var cookie := if viewed then None else Some(ViewCookie(id));
          if failAt == Some(ReadFiles) then DetailOutcome(t', DetailError, cookie)
          else DetailOutcome(t', Render(n, A.GetByNewsId(atts, id)), cookie)
  }

  /**
   * `getNewsDetail`. `requested` is the slug segment, absent on the
   * `/news/:id` route and never empty, since Express matches `:slug` only
   * against a non-empty segment; `viewed` is whether the view cookie is
   * truthy. The rendered row is the one read before the count went up.
   */
  function NewsDetail(t: N.NewsTable, atts: A.AttachmentTable, rev: Revision, id: nat, requested: Option<string>,
                      userId: Option<int>, viewed: bool, now: int, failAt: Option<DetailStep>): (r: DetailOutcome)
    requires N.Valid(t) && requested != Some("")
    ensures N.Valid(r.news)
    ensures failAt == Some(LookUp) ==> r == DetailOutcome(t, DetailError, None)
    ensures failAt != Some(LookUp) ==> (r.response == NotFound <==> id !in N.Ids(t.rows))
    ensures !r.response.Render? && !r.response.DetailError? ==> r.news == t && r.cookie == None
    ensures r.response.DetailError? && failAt != Some(ReadFiles) ==> r.news == t && r.cookie == None
    ensures failAt != Some(LookUp) && id in N.Ids(t.rows) ==>
      var n := N.GetNewsById(t, id).value;
      var at := requested == Some(Canonical(rev, n.title));
      && (r.response.MovedPermanently? <==> !at)
      && (r.response.MovedPermanently? ==> r.response.location == NewsUrl(id, Canonical(rev, n.title)))
      && (r.response == NotYetAvailable <==> at && Unpublished(userId, now, n))
      && (r.response.Render? <==>
            at && !Unpublished(userId, now, n) && failAt != Some(ReadFiles) && (viewed || failAt != Some(CountView)))
      && (r.response.DetailError? <==>
            at && !Unpublished(userId, now, n) && (failAt == Some(ReadFiles) || (!viewed && failAt == Some(CountView))))
    ensures r.response.Render? ==>
      && r.response.news == N.GetNewsById(t, id).value
      && (forall a :: a in r.response.files <==> a in atts.rows && a.newsId == id)
      && (forall a {:trigger multiset(r.response.files)[a]} :: multiset(r.response.files)[a] == if a.newsId == id then multiset(atts.rows)[a] else 0)
    ensures r.response.Render? || (r.response.DetailError? && failAt == Some(ReadFiles)) ==>
      && (viewed ==> r.news == t && r.cookie == None)
      && (!viewed ==> r.news == N.IncrementViewCount(t, id) && r.cookie == Some(ViewCookie(id)))
  {
    Detail(false, t, atts, rev, id, requested, userId, viewed, now, failAt)
  }

  /**
   * The detail handler with the bare route taken as the address of an
   * article whose slug is empty: on every request with a slug it answers as
   * `NewsDetail` does, and on the bare route it redirects exactly when the
   * slug is not empty.
   */
  function NewsDetailFixed(t: N.NewsTable, atts: A.AttachmentTable, rev: Revision, id: nat, requested: Option<string>,
                           userId: Option<int>, viewed: bool, now: int, failAt: Option<DetailStep>): (r: DetailOutcome)
    requires N.Valid(t) && requested != Some("")
    ensures N.Valid(r.news)
    ensures requested.Some? ==> r == NewsDetail(t, atts, rev, id, requested, userId, viewed, now, failAt)
    ensures failAt != Some(LookUp) && id in N.Ids(t.rows) && requested.None? ==>
      (r.response.MovedPermanently? <==> Canonical(rev, N.GetNewsById(t, id).value.title) != "")
  {
    Detail(true, t, atts, rev, id, requested, userId, viewed, now, failAt)
  }

  /**
   * A slug that survives the trip through `res.redirect`, the browser and the
   * router. Express decodes `%XX` escapes in a parameter, `#` starts a
   * fragment, browsers read `\` as `/` and resolve the segments `.` and
   * `..` away; a slug holding any of these comes back changed.
   */
  predicate Routable(slug: string) {
    '%' !in slug && '#' !in slug && '\\' !in slug && slug != "." && slug != ".."
  }

  /**
   * The `:slug` parameter of the request a browser makes when it follows a
   * redirect to `NewsUrl(id, slug)`: `/news/<id>/` is served by the
   * `/news/:id` route, so an empty slug comes back as no slug at all.
   */
  function FollowSlug(slug: string): (r: Option<string>)
    requires Routable(slug)
    ensures r != Some("")
    ensures r.Some? <==> slug != ""
  {
    if slug == "" then None else Some(slug)
  }

  // ---------------------------------------------------------------------------
  // Properties of the detail page

  /** Every slug of the current variant is routable; only legacy slugs can hold `%`, `#` or `\`. */
  lemma CurrentSlugRoutable(title: string)
    ensures Routable(Canonical(Modular, title))
  {
    var s := Canonical(Modular, title);
    Slug.CreateSlugShape(Some(title));
    assert forall i :: 0 <= i < |s| ==> s[i] != '%' && s[i] != '#' && s[i] != '\\' && s[i] != '.';
  }

  /** The `/news/:id` route redirects whenever the article exists, since no slug equals an absent one. */
  lemma SluglessRouteRedirects(t: N.NewsTable, atts: A.AttachmentTable, rev: Revision, id: nat,
                               userId: Option<int>, viewed: bool, now: int)
    requires N.Valid(t) && id in N.Ids(t.rows)
    ensures var r := NewsDetail(t, atts, rev, id, None, userId, viewed, now, None);
      && r.response.MovedPermanently? && r.news == t && r.cookie == None
  {
  }

  /**
   * Following the redirect reaches the article when its slug is not empty:
   * the canonical address is a fixed point.
   */
  lemma RedirectThenRender(t: N.NewsTable, atts: A.AttachmentTable, rev: Revision, id: nat, requested: Option<string>,
                           userId: Option<int>, now: int)
    requires N.Valid(t) && requested != Some("")
    requires NewsDetail(t, atts, rev, id, requested, userId, true, now, None).response.MovedPermanently?
    requires var c := Canonical(rev, N.GetNewsById(t, id).value.title); c != "" && Routable(c)
    ensures var c := Canonical(rev, N.GetNewsById(t, id).value.title);
      var again := NewsDetail(t, atts, rev, id, FollowSlug(c), userId, true, now, None);
      again.response.Render? || again.response == NotYetAvailable
  {
  }

  /**
   * An article whose slug is empty, such as one titled `'!!!'`, is never
   * shown: every request for it is redirected to `/news/<id>/`, which
   * arrives on the bare route and is redirected to itself again.
   */
  lemma EmptySlugLoops(t: N.NewsTable, atts: A.AttachmentTable, rev: Revision, n: N.News, id: nat,
                       requested: Option<string>, userId: Option<int>, viewed: bool, now: int)
    requires N.Valid(t) && n in t.rows && n.id == id && Canonical(rev, n.title) == ""
    requires requested != Some("")
    ensures var r := NewsDetail(t, atts, rev, id, requested, userId, viewed, now, None);
      && r.response == MovedPermanently(NewsUrl(id, ""))
      && FollowSlug("") == None
      && NewsDetail(t, atts, rev, id, FollowSlug(""), userId, viewed, now, None).response == r.response
  {
    N.UniqueLookup(t.rows, n);
  }

  /** With the bare route taken as the empty slug's address, one redirect always reaches the article. */
  lemma FixedRedirectThenRender(t: N.NewsTable, atts: A.AttachmentTable, rev: Revision, id: nat,
                                requested: Option<string>, userId: Option<int>, now: int)
    requires N.Valid(t) && requested != Some("")
    requires NewsDetailFixed(t, atts, rev, id, requested, userId, true, now, None).response.MovedPermanently?
    requires Routable(Canonical(rev, N.GetNewsById(t, id).value.title))
    ensures var c := Canonical(rev, N.GetNewsById(t, id).value.title);
      var again := NewsDetailFixed(t, atts, rev, id, FollowSlug(c), userId, true, now, None);
      again.response.Render? || again.response == NotYetAvailable
  {
  }

  /**
   * Nothing compares the end date with `now`: an ended article at its
   * canonical address still shows and still counts a first view.
   */
  lemma EndedArticleStillCounts(t: N.NewsTable, atts: A.AttachmentTable, rev: Revision, n: N.News, id: nat,
                                userId: Option<int>, now: int)
    requires N.Valid(t) && n in t.rows && n.id == id
    requires n.end < now && n.start <= now && Canonical(rev, n.title) != ""
    ensures var r := NewsDetail(t, atts, rev, id, Some(Canonical(rev, n.title)), userId, false, now, None);
      && r.response == Render(n, A.GetByNewsId(atts, id))
      && r.news == N.IncrementViewCount(t, id)
      && r.cookie == Some(ViewCookie(id))
  {
    N.UniqueLookup(t.rows, n);
  }

  /** A signed-in admin sees an article before its start; the public gets "not yet available". */
  lemma AdminsSeeUnpublished(t: N.NewsTable, atts: A.AttachmentTable, rev: Revision, n: N.News, id: nat,
                             adminId: int, viewed: bool, now: int)
    requires N.Valid(t) && n in t.rows && n.id == id && now < n.start && adminId != 0
    requires Canonical(rev, n.title) != ""
    ensures NewsDetail(t, atts, rev, id, Some(Canonical(rev, n.title)), None, viewed, now, None).response
         == NotYetAvailable
    ensures NewsDetail(t, atts, rev, id, Some(Canonical(rev, n.title)), Some(adminId), viewed, now, None).response
         == Render(n, A.GetByNewsId(atts, id))
  {
    N.UniqueLookup(t.rows, n);
  }

  /** With the cookie set by a first view, a second view shows the article and counts nothing. */
  lemma SecondViewNotCounted(t: N.NewsTable, atts: A.AttachmentTable, rev: Revision, id: nat, requested: Option<string>,
                             userId: Option<int>, now: int)
    requires N.Valid(t) && requested != Some("")
    requires NewsDetail(t, atts, rev, id, requested, userId, false, now, None).response.Render?
    ensures var first := NewsDetail(t, atts, rev, id, requested, userId, false, now, None);
      var second := NewsDetail(first.news, atts, rev, id, requested, userId, true, now, None);
      && second.response.Render? && second.news == first.news && second.cookie == None
      && second.response.news.viewCount == first.response.news.viewCount + 1
  {
    var n := N.GetNewsById(t, id).value;
    N.IncrementThenGet(t, n);
  }

  /**
   * A title holding a character that neither slug function keeps nor
   * separates, such as `@`, has different canonical addresses in the two
   * revisions: the address one revision shows, the other redirects away from.
   */
  lemma RevisionsRedirectDifferently(t: N.NewsTable, atts: A.AttachmentTable, n: N.News, id: nat, i: nat,
                                     userId: Option<int>, viewed: bool, now: int)
    requires N.Valid(t) && n in t.rows && n.id == id
    requires i < |n.title| && Slug.NotSlugChar(n.title[i]) && !Slug.LegacySeparator(n.title[i]) && n.title[i] != '-'
    requires Canonical(Modular, n.title) != ""
    ensures var modular := Some(Canonical(Modular, n.title));
      && !NewsDetail(t, atts, Modular, id, modular, userId, viewed, now, None).response.MovedPermanently?
      && NewsDetail(t, atts, Inline, id, modular, userId, viewed, now, None).response
         == MovedPermanently(NewsUrl(id, Canonical(Inline, n.title)))
  {
    N.UniqueLookup(t.rows, n);
    Slug.RevisionsDiverge(n.title, i);
  }
}

=== FILE: slug.dfy ===
/**
 * URL slugs derived from a news title.
 *
 * `CreateSlug` is the current variant (utils/helpers.js): keep ASCII letters,
 * ASCII digits and the Thai block U+0E00..U+0E7F, turn every maximal run of any
 * other characters into one hyphen, and strip leading and trailing hyphens.
 * `CreateLegacySlug` is the older variant inlined in app.js, which only turns
 * runs of whitespace, `/`, `(`, `)` and `?` into a hyphen.
 *
 * Both are written as the pipeline of `String.prototype.trim` and
 * `String.prototype.replace` calls the source performs. The regular
 * expressions carry no `u` flag, so they see UTF-16 code units; a title is a
 * `seq<char>`, and a character outside the Basic Multilingual Plane, which
 * the source sees as two surrogate code units, is one character here. Both of
 * its surrogates fall outside every class used below, so they form one run in
 * the source exactly where the single character forms one run here.
 */
module Slug {
  import opened Common

  /** The characters the current variant keeps: `[฀-๿a-zA-Z0-9]`. */
  predicate IsSlugChar(c: char) {
    || ('a' <= c <= 'z')
    || ('A' <= c <= 'Z')
    || ('0' <= c <= '9')
    || ('\U{0E00}' <= c <= '\U{0E7F}')
  }

  /**
   * The characters of JavaScript's `\s` class, which are also the characters
   * `trim()` removes: the ECMAScript WhiteSpace and LineTerminator sets.
   */
  predicate IsJsWhitespace(c: char) {
    || c == '\t' || c == '\n' || c == '\U{B}' || c == '\U{C}' || c == '\r' || c == ' '
    || c == '\U{A0}' || c == '\U{1680}' || ('\U{2000}' <= c <= '\U{200A}')
    || c == '\U{2028}' || c == '\U{2029}' || c == '\U{202F}' || c == '\U{205F}'
    || c == '\U{3000}' || c == '\U{FEFF}'
  }

  /** `[^฀-๿a-zA-Z0-9]`: the characters the current variant replaces. */
  predicate NotSlugChar(c: char) {
    !IsSlugChar(c)
  }

  predicate Hyphen(c: char) {
    c == '-'
  }

  /** `[\s\/\(\)\?]`: the characters the legacy variant replaces. */
  predicate LegacySeparator(c: char) {
    IsJsWhitespace(c) || c == '/' || c == '(' || c == ')' || c == '?'
  }

  /** The length of the longest prefix of `s` made of characters matching `p`. */
  function LeadingRun(p: char -> bool, s: string): (n: nat)
    ensures n <= |s|
    ensures forall i :: 0 <= i < n ==> p(s[i])
    ensures n < |s| ==> !p(s[n])
  {
    if s != [] && p(s[0]) then 1 + LeadingRun(p, s[1..]) else 0
  }

  /** The length of the longest suffix of `s` made of characters matching `p`. */
  function TrailingRun(p: char -> bool, s: string): (n: nat)
    ensures n <= |s|
    ensures forall i :: |s| - n <= i < |s| ==> p(s[i])
    ensures n < |s| ==> !p(s[|s| - n - 1])
  {
    if s != [] && p(s[|s| - 1]) then 1 + TrailingRun(p, s[..|s| - 1]) else 0
  }

  /** `s` without its leading run of characters matching `p`. */
  function DropLeading(p: char -> bool, s: string): string {
    s[LeadingRun(p, s)..]
  }

  /**
   * Both edges stripped of characters matching `p`: `trim()` for
   * `IsJsWhitespace`, and `replace(/^-+|-+$/g, '')` for `Hyphen`.
   */
  function StripEdges(p: char -> bool, s: string): string {
    var rest := DropLeading(p, s);
    rest[..|rest| - TrailingRun(p, rest)]
  }

  /**
   * `replace(/P+/g, '-')` for the class `P` of `p`: scanning from the left,
   * the greedy `+` takes each maximal run of matching characters, and each
   * run becomes a single hyphen; other characters are copied.
   */
  function ReplaceRuns(p: char -> bool, s: string): string
    decreases |s|
  {
    if s == [] then []
    else if p(s[0]) then "-" + ReplaceRuns(p, DropLeading(p, s[1..]))
    else [s[0]] + ReplaceRuns(p, s[1..])
  }

  /** `createSlug` of utils/helpers.js. */
  function CreateSlug(title: Option<string>): string {
    if !PresentText(title) then ""
    else
      var trimmed := StripEdges(IsJsWhitespace, title.value);
      var dashed := ReplaceRuns(NotSlugChar, trimmed);
      var collapsed := ReplaceRuns(Hyphen, dashed);
      StripEdges(Hyphen, collapsed)
  }

  /** `createSlug` of app.js, the older revision. */
  function CreateLegacySlug(title: Option<string>): string {
    if !PresentText(title) then ""
    else
      var trimmed := StripEdges(IsJsWhitespace, title.value);
      var dashed := ReplaceRuns(LegacySeparator, trimmed);
      StripEdges(Hyphen, dashed)
  }

  // ---------------------------------------------------------------------------
  // Shape predicates

  /** Every character of `s` is one the current variant keeps, or a hyphen. */
  predicate InSlugAlphabet(s: string) {
    forall i :: 0 <= i < |s| ==> IsSlugChar(s[i]) || s[i] == '-'
  }

  /** No character of `s` matches `p`. */
  predicate NoneMatch(p: char -> bool, s: string) {
    forall i :: 0 <= i < |s| ==> !p(s[i])
  }

  /** No two neighbouring characters of `s` both match `p`. */
  predicate NoAdjacent(p: char -> bool, s: string) {
    forall i :: 0 < i < |s| ==> !(p(s[i - 1]) && p(s[i]))
  }

  /** `s` neither starts nor ends with a hyphen. */
  predicate NoEdgeHyphen(s: string) {
    s != [] ==> s[0] != '-' && s[|s| - 1] != '-'
  }

  /** The shape of every slug the current variant produces. */
  predicate IsSlug(s: string) {
    InSlugAlphabet(s) && NoAdjacent(Hyphen, s) && NoEdgeHyphen(s)
  }

  /** `s` with every character matching `p` deleted, the others kept in order. */
  function Without(p: char -> bool, s: string): string
    decreases |s|
  {
    if s == [] then [] else (if p(s[0]) then [] else [s[0]]) + Without(p, s[1..])
  }

  // ---------------------------------------------------------------------------
  // Lemmas about the building blocks

  lemma {:induction false} WithoutAppend(p: char -> bool, a: string, b: string)
    ensures Without(p, a + b) == Without(p, a) + Without(p, b)
    decreases |a|
  {
    if a != [] {
      assert (a + b)[1..] == a[1..] + b;
      WithoutAppend(p, a[1..], b);
    } else {
      assert a + b == b;
    }
  }

  lemma {:induction false} WithoutAllMatch(p: char -> bool, s: string)
    requires forall i :: 0 <= i < |s| ==> p(s[i])
    ensures Without(p, s) == []
    decreases |s|
  {
    if s != [] {
      WithoutAllMatch(p, s[1..]);
    }
  }

  /** Only a string of characters matching `p` loses every character. */
  lemma {:induction false} WithoutEmptyAllMatch(p: char -> bool, s: string)
    requires Without(p, s) == []
    ensures forall i :: 0 <= i < |s| ==> p(s[i])
    decreases |s|
  {
    if s != [] {
      WithoutEmptyAllMatch(p, s[1..]);
      forall i | 0 < i < |s| ensures p(s[i]) {
        assert s[i] == s[1..][i - 1];
      }
    }
  }

  lemma {:induction false} WithoutNoneMatch(p: char -> bool, s: string)
    requires NoneMatch(p, s)
    ensures Without(p, s) == s
    decreases |s|
  {
    if s != [] {
      WithoutNoneMatch(p, s[1..]);
    }
  }

  /** Two classes that agree on every character of `s` delete the same characters. */
  lemma {:induction false} WithoutAgree(p: char -> bool, q: char -> bool, s: string)
    requires forall i :: 0 <= i < |s| ==> (p(s[i]) <==> q(s[i]))
    ensures Without(p, s) == Without(q, s)
    decreases |s|
  {
    if s != [] {
      WithoutAgree(p, q, s[1..]);
    }
  }

  /** Deleting a larger class after a smaller one is deleting the larger one. */
  lemma {:induction false} WithoutAbsorb(p: char -> bool, q: char -> bool, s: string)
    requires forall i :: 0 <= i < |s| ==> p(s[i]) ==> q(s[i])
    ensures Without(q, Without(p, s)) == Without(q, s)
    decreases |s|
  {
    if s != [] {
      WithoutAbsorb(p, q, s[1..]);
      var head := if p(s[0]) then [] else [s[0]];
      WithoutAppend(q, head, Without(p, s[1..]));
    }
  }

  /** Dropping a leading run of `p` characters deletes nothing `Without(p, _)` keeps. */
  lemma DropLeadingWithout(p: char -> bool, s: string)
    ensures Without(p, DropLeading(p, s)) == Without(p, s)
  {
    var k := LeadingRun(p, s);
    assert s == s[..k] + s[k..];
    WithoutAppend(p, s[..k], s[k..]);
    WithoutAllMatch(p, s[..k]);
  }

  /**
   * StripEdges keeps a contiguous slice `s[a..a + |r|]` and drops only
   * characters matching `p` on either side of it.
   */
  lemma StripEdgesSlice(p: char -> bool, s: string) returns (a: nat)
    ensures var r := StripEdges(p, s);
      && a + |r| <= |s| && r == s[a..a + |r|]
      && (forall i :: 0 <= i < a ==> p(s[i]))
      && (forall i :: a + |r| <= i < |s| ==> p(s[i]))
      && (r != [] ==> !p(r[0]) && !p(r[|r| - 1]))
  {
    a := LeadingRun(p, s);
    var rest := s[a..];
    var m := |rest| - TrailingRun(p, rest);
    var r := rest[..m];
    assert StripEdges(p, s) == r;
    assert r == s[a..a + m];
    forall i | a + m <= i < |s| ensures p(s[i]) {
      assert s[i] == rest[i - a];
    }
    assert r != [] ==> !p(r[0]) && !p(r[|r| - 1]) by {
      if r != [] {
        assert r[0] == s[a] && r[|r| - 1] == rest[m - 1];
      }
    }
  }

  /** StripEdges only ever deletes characters matching `p`. */
  lemma StripEdgesWithout(p: char -> bool, s: string)
    ensures Without(p, StripEdges(p, s)) == Without(p, s)
  {
    var rest := DropLeading(p, s);
    var m := |rest| - TrailingRun(p, rest);
    DropLeadingWithout(p, s);
    assert rest == rest[..m] + rest[m..];
    WithoutAppend(p, rest[..m], rest[m..]);
    WithoutAllMatch(p, rest[m..]);
  }

  /** StripEdges changes nothing when no edge character matches `p`. */
  lemma StripEdgesIdentity(p: char -> bool, s: string)
    requires s != [] ==> !p(s[0]) && !p(s[|s| - 1])
    ensures StripEdges(p, s) == s
  {
  }

  /**
   * In the output of ReplaceRuns the only characters matching `p` are the
   * hyphens it writes, and never two of them side by side.
   */
  lemma {:induction false} ReplaceRunsShape(p: char -> bool, s: string)
    ensures var r := ReplaceRuns(p, s);
      && (forall i :: 0 <= i < |r| ==> p(r[i]) ==> r[i] == '-')
      && NoAdjacent(p, r)
      && (s != [] && !p(s[0]) ==> r != [] && r[0] == s[0])
    decreases |s|
  {
    if s != [] {
      var r := ReplaceRuns(p, s);
      if p(s[0]) {
        var t := DropLeading(p, s[1..]);
        ReplaceRunsShape(p, t);
        var rest := ReplaceRuns(p, t);
        assert r == "-" + rest;
      } else {
        ReplaceRunsShape(p, s[1..]);
        var rest := ReplaceRuns(p, s[1..]);
        assert r == [s[0]] + rest;
      }
    }
  }

  /** A hyphen-only class: deleting hyphens from the output of ReplaceRuns deletes the runs. */
  lemma {:induction false} ReplaceRunsWithout(p: char -> bool, s: string)
    requires p('-')
    ensures Without(p, ReplaceRuns(p, s)) == Without(p, s)
    decreases |s|
  {
    if s != [] {
      if p(s[0]) {
        var t := DropLeading(p, s[1..]);
        ReplaceRunsWithout(p, t);
        WithoutAppend(p, "-", ReplaceRuns(p, t));
        DropLeadingWithout(p, s[1..]);
      } else {
        ReplaceRunsWithout(p, s[1..]);
        WithoutAppend(p, [s[0]], ReplaceRuns(p, s[1..]));
      }
    }
  }

  /**
   * A class without the hyphen: after ReplaceRuns, deleting hyphens leaves
   * the input with both the class and its hyphens deleted.
   */
  lemma {:induction false} ReplaceRunsWithoutHyphens(p: char -> bool, s: string)
    requires !p('-')
    ensures Without(Hyphen, ReplaceRuns(p, s)) == Without(Hyphen, Without(p, s))
    decreases |s|
  {
    if s != [] {
      if p(s[0]) {
        var t := DropLeading(p, s[1..]);
        ReplaceRunsWithoutHyphens(p, t);
        WithoutAppend(Hyphen, "-", ReplaceRuns(p, t));
        assert Without(Hyphen, "-") == [];
        DropLeadingWithout(p, s[1..]);
        assert Without(p, s) == Without(p, s[1..]);
      } else {
        ReplaceRunsWithoutHyphens(p, s[1..]);
        WithoutAppend(Hyphen, [s[0]], ReplaceRuns(p, s[1..]));
        WithoutAppend(Hyphen, [s[0]], Without(p, s[1..]));
      }
    }
  }

  /** ReplaceRuns is the identity on text whose `p` characters are lone hyphens. */
  lemma {:induction false} ReplaceRunsIdentity(p: char -> bool, s: string)
    requires forall i :: 0 <= i < |s| ==> p(s[i]) ==> s[i] == '-'
    requires NoAdjacent(p, s)
    ensures ReplaceRuns(p, s) == s
    decreases |s|
  {
    if s != [] {
      if p(s[0]) {
        assert DropLeading(p, s[1..]) == s[1..] by {
          if |s| > 1 {
            assert !(p(s[0]) && p(s[1]));
          }
        }
      }
      ReplaceRunsIdentity(p, s[1..]);
    }
  }

  lemma SlugCharIsNotWhitespace(c: char)
    requires IsSlugChar(c) || c == '-'
    ensures !IsJsWhitespace(c) && !LegacySeparator(c)
  {
  }

  // ---------------------------------------------------------------------------
  // Properties of the current variant

  /**
   * The hyphen collapse of utils/helpers.js line 6 never changes anything:
   * after line 5 every hyphen is a lone replacement of a run.
   */
  lemma CollapseIsRedundant(trimmed: string)
    ensures var dashed := ReplaceRuns(NotSlugChar, trimmed);
      ReplaceRuns(Hyphen, dashed) == dashed
  {
    var dashed := ReplaceRuns(NotSlugChar, trimmed);
    DashedShape(trimmed);
    ReplaceRunsIdentity(Hyphen, dashed);
  }

  /** A slice keeps the alphabet and the no-double-hyphen property of its source. */
  lemma SliceKeepsShape(s: string, a: nat, n: nat)
    requires a + n <= |s|
    requires InSlugAlphabet(s) && NoAdjacent(Hyphen, s)
    ensures InSlugAlphabet(s[a..a + n]) && NoAdjacent(Hyphen, s[a..a + n])
  {
    var r := s[a..a + n];
    forall i | 0 < i < |r|
      ensures !(Hyphen(r[i - 1]) && Hyphen(r[i]))
    {
      assert r[i - 1] == s[a + i - 1] && r[i] == s[a + i];
    }
  }

  /** After line 5 of utils/helpers.js only kept characters and lone hyphens remain. */
  lemma DashedShape(trimmed: string)
    ensures var dashed := ReplaceRuns(NotSlugChar, trimmed);
      && InSlugAlphabet(dashed) && NoAdjacent(Hyphen, dashed)
      && (forall i :: 0 <= i < |dashed| ==> NotSlugChar(dashed[i]) ==> dashed[i] == '-')
  {
    var dashed := ReplaceRuns(NotSlugChar, trimmed);
    ReplaceRunsShape(NotSlugChar, trimmed);
    forall i | 0 < i < |dashed|
      ensures !(Hyphen(dashed[i - 1]) && Hyphen(dashed[i]))
    {
      assert !(NotSlugChar(dashed[i - 1]) && NotSlugChar(dashed[i]));
    }
  }

  /**
   * The current variant's output is a slug: only kept characters and
   * hyphens, no doubled hyphen, no hyphen at either end; an absent or empty
   * title gives the empty slug.
   */
  lemma CreateSlugShape(title: Option<string>)
    ensures IsSlug(CreateSlug(title))
    ensures !PresentText(title) ==> CreateSlug(title) == ""
  {
    if PresentText(title) {
      var trimmed := StripEdges(IsJsWhitespace, title.value);
      CreateSlugSteps(title.value);
      DashedShape(trimmed);
      StrippedShape(ReplaceRuns(NotSlugChar, trimmed));
    }
  }

  /** With the collapse step dropped, the current variant is trim, replace, strip. */
  lemma CreateSlugSteps(t: string)
    requires t != ""
    ensures CreateSlug(Some(t))
         == StripEdges(Hyphen, ReplaceRuns(NotSlugChar, StripEdges(IsJsWhitespace, t)))
  {
    CollapseIsRedundant(StripEdges(IsJsWhitespace, t));
  }

  /** Stripping the edge hyphens of a string without doubled hyphens makes a slug. */
  lemma StrippedShape(dashed: string)
    requires InSlugAlphabet(dashed) && NoAdjacent(Hyphen, dashed)
    ensures IsSlug(StripEdges(Hyphen, dashed))
  {
    var a := StripEdgesSlice(Hyphen, dashed);
    var r := StripEdges(Hyphen, dashed);
    SliceKeepsShape(dashed, a, |r|);
  }

  /** trim() deletes only whitespace, and whitespace is never kept. */
  lemma TrimKeepsLetters(t: string)
    ensures Without(NotSlugChar, StripEdges(IsJsWhitespace, t)) == Without(NotSlugChar, t)
  {
    var trimmed := StripEdges(IsJsWhitespace, t);
    WithoutAbsorb(IsJsWhitespace, NotSlugChar, trimmed);
    StripEdgesWithout(IsJsWhitespace, t);
    WithoutAbsorb(IsJsWhitespace, NotSlugChar, t);
  }

  /**
   * Deleting the hyphens from the slug gives the title with every character
   * outside the kept alphabet deleted: no kept character is lost, reordered
   * or invented.
   */
  lemma CreateSlugKeepsLetters(t: string)
    ensures Without(Hyphen, CreateSlug(Some(t))) == Without(NotSlugChar, t)
  {
    if t != "" {
      var trimmed := StripEdges(IsJsWhitespace, t);
      var dashed := ReplaceRuns(NotSlugChar, trimmed);
      CreateSlugSteps(t);
      StripEdgesWithout(Hyphen, dashed);
      DashedShape(trimmed);
      WithoutAgree(Hyphen, NotSlugChar, dashed);
      ReplaceRunsWithout(NotSlugChar, trimmed);
      TrimKeepsLetters(t);
    }
  }

  /** A title without a single kept character, such as `'!!!'` or `'---'`, has the empty slug. */
  lemma NoKeptCharEmptySlug(t: string)
    requires forall i :: 0 <= i < |t| ==> NotSlugChar(t[i])
    ensures CreateSlug(Some(t)) == ""
  {
    var s := CreateSlug(Some(t));
    WithoutAllMatch(NotSlugChar, t);
    CreateSlugKeepsLetters(t);
    CreateSlugShape(Some(t));
    WithoutEmptyAllMatch(Hyphen, s);
  }

  /** Every slug is its own slug. */
  lemma SlugIsFixedPoint(s: string)
    requires IsSlug(s)
    ensures CreateSlug(Some(s)) == s
  {
    if s != "" {
      forall i | 0 <= i < |s| ensures !IsJsWhitespace(s[i]) {
        SlugCharIsNotWhitespace(s[i]);
      }
      StripEdgesIdentity(IsJsWhitespace, s);
      ReplaceRunsIdentity(NotSlugChar, s);
      ReplaceRunsIdentity(Hyphen, s);
      StripEdgesIdentity(Hyphen, s);
    }
  }

  /** The current variant is idempotent. */
  lemma CreateSlugIdempotent(title: Option<string>)
    ensures CreateSlug(Some(CreateSlug(title))) == CreateSlug(title)
  {
    CreateSlugShape(title);
    SlugIsFixedPoint(CreateSlug(title));
  }

  // ---------------------------------------------------------------------------
  // Properties of the legacy variant

  /**
   * The legacy variant's output contains no whitespace, `/`, `(`, `)` or `?`
   * and neither starts nor ends with a hyphen; an absent or empty title gives
   * the empty slug.
   */
  lemma LegacySlugShape(title: Option<string>)
    ensures NoneMatch(LegacySeparator, CreateLegacySlug(title))
    ensures NoEdgeHyphen(CreateLegacySlug(title))
    ensures !PresentText(title) ==> CreateLegacySlug(title) == ""
  {
    if PresentText(title) {
      var trimmed := StripEdges(IsJsWhitespace, title.value);
      var dashed := ReplaceRuns(LegacySeparator, trimmed);
      assert NoneMatch(LegacySeparator, dashed) by {
        ReplaceRunsShape(LegacySeparator, trimmed);
      }
      var r := StripEdges(Hyphen, dashed);
      assert CreateLegacySlug(title) == r;
      var a := StripEdgesSlice(Hyphen, dashed);
      assert NoEdgeHyphen(r);
      forall i | 0 <= i < |r| ensures !LegacySeparator(r[i]) {
        assert r[i] == dashed[a + i];
      }
    }
  }

  /** trim() deletes only whitespace, and whitespace is a legacy separator. */
  lemma TrimKeepsNonSeparators(t: string)
    ensures Without(LegacySeparator, StripEdges(IsJsWhitespace, t)) == Without(LegacySeparator, t)
  {
    var trimmed := StripEdges(IsJsWhitespace, t);
    WithoutAbsorb(IsJsWhitespace, LegacySeparator, trimmed);
    StripEdgesWithout(IsJsWhitespace, t);
    WithoutAbsorb(IsJsWhitespace, LegacySeparator, t);
  }

  /**
   * Every character other than a separator survives the legacy variant in
   * order, including `@`, `!` and hyphens already in the title: deleting the
   * hyphens from both sides, the output is the title without its separators.
   */
  lemma LegacySlugKeepsOthers(t: string)
    ensures Without(Hyphen, CreateLegacySlug(Some(t))) == Without(Hyphen, Without(LegacySeparator, t))
  {
    if t != "" {
      var trimmed := StripEdges(IsJsWhitespace, t);
      var dashed := ReplaceRuns(LegacySeparator, trimmed);
      assert CreateLegacySlug(Some(t)) == StripEdges(Hyphen, dashed);
      StripEdgesWithout(Hyphen, dashed);
      ReplaceRunsWithoutHyphens(LegacySeparator, trimmed);
      TrimKeepsNonSeparators(t);
    }
  }

  /** The legacy variant is idempotent too. */
  lemma LegacySlugIdempotent(title: Option<string>)
    ensures CreateLegacySlug(Some(CreateLegacySlug(title))) == CreateLegacySlug(title)
  {
    LegacySlugShape(title);
    var s := CreateLegacySlug(title);
    if s != "" {
      assert NoneMatch(IsJsWhitespace, s);
      StripEdgesIdentity(IsJsWhitespace, s);
      ReplaceRunsIdentity(LegacySeparator, s);
      StripEdgesIdentity(Hyphen, s);
    }
  }

  /**
   * The current variant keeps a subset of what the legacy variant keeps:
   * filtering the legacy slug down to the current alphabet gives exactly the
   * characters of the current slug.
   */
  lemma CurrentKeepsSubsetOfLegacy(t: string)
    ensures Without(Hyphen, CreateSlug(Some(t)))
         == Without(NotSlugChar, Without(Hyphen, CreateLegacySlug(Some(t))))
  {
    var others := Without(LegacySeparator, t);
    assert Without(Hyphen, CreateLegacySlug(Some(t))) == Without(Hyphen, others) by {
      LegacySlugKeepsOthers(t);
    }
    assert Without(NotSlugChar, Without(Hyphen, others)) == Without(NotSlugChar, others) by {
      WithoutAbsorb(Hyphen, NotSlugChar, others);
    }
    assert Without(NotSlugChar, others) == Without(NotSlugChar, t) by {
      forall i | 0 <= i < |t| ensures LegacySeparator(t[i]) ==> NotSlugChar(t[i]) {
        if IsSlugChar(t[i]) {
          SlugCharIsNotWhitespace(t[i]);
        }
      }
      WithoutAbsorb(LegacySeparator, NotSlugChar, t);
    }
    assert Without(Hyphen, CreateSlug(Some(t))) == Without(NotSlugChar, t) by {
      CreateSlugKeepsLetters(t);
    }
  }

  // ---------------------------------------------------------------------------
  // Worked examples

  /** A block of characters none of which matches `p` is copied unchanged. */
  lemma {:induction false} ReplaceRunsCopies(p: char -> bool, a: string, b: string)
    requires forall c :: c in a ==> !p(c)
    ensures ReplaceRuns(p, a + b) == a + ReplaceRuns(p, b)
    decreases |a|
  {
    if a != [] {
      assert a[0] in a;
      assert (a + b)[1..] == a[1..] + b;
      assert forall c :: c in a[1..] ==> c in a;
      ReplaceRunsCopies(p, a[1..], b);
    } else {
      assert a + b == b;
    }
  }

  /** The leading run is exactly as long as a prefix of matching characters followed by a non-matching one. */
  lemma {:induction false} LeadingRunIs(p: char -> bool, s: string, k: nat)
    requires k <= |s| && (forall i :: 0 <= i < k ==> p(s[i])) && (k < |s| ==> !p(s[k]))
    ensures LeadingRun(p, s) == k
    decreases k
  {
    if k > 0 {
      LeadingRunIs(p, s[1..], k - 1);
    }
  }

  /** A whole run of characters matching `p` becomes one hyphen. */
  lemma ReplaceRunsRun(p: char -> bool, a: string, b: string)
    requires a != [] && forall c :: c in a ==> p(c)
    requires b != [] ==> !p(b[0])
    ensures ReplaceRuns(p, a + b) == "-" + ReplaceRuns(p, b)
  {
    var s := a + b;
    assert s[0] in a;
    assert forall i :: 0 <= i < |a| - 1 ==> s[1..][i] in a;
    assert |a| - 1 < |s[1..]| ==> s[1..][|a| - 1] == b[0];
    LeadingRunIs(p, s[1..], |a| - 1);
    assert DropLeading(p, s[1..]) == b;
  }

  /**
   * Two words joined by a run of dropped characters, with any dropped
   * characters before and after them, give the two words joined by one
   * hyphen: the shape of `'Hello World'`, `'Hello @ World!'`,
   * `'-Hello-World-'` and `'สวัสดี ชาวโลก'`.
   */
  lemma TwoWordsSlug(pre: string, h: string, sep: string, w: string, post: string)
    requires h != [] && w != [] && sep != []
    requires forall c :: c in pre ==> NotSlugChar(c)
    requires forall c :: c in h ==> IsSlugChar(c)
    requires forall c :: c in w ==> IsSlugChar(c)
    requires forall c :: c in sep ==> NotSlugChar(c)
    requires forall c :: c in post ==> NotSlugChar(c)
    ensures CreateSlug(Some(pre + h + sep + w + post)) == h + "-" + w
  {
    var t := pre + h + sep + w + post;
    var lead, tail := DashedTwoWords(pre, h, sep, w, post);
    var core := h + "-" + w;
    Regroup5(lead, h, "-", w, tail);
    assert core[0] == h[0] && h[0] in h && core[|core| - 1] == w[|w| - 1] && w[|w| - 1] in w;
    StripTwoWords(lead, core, tail);
    CreateSlugSteps(t);
  }

  /** Edge hyphens are dropped: `'-Hello-World-'` gives `'Hello-World'`. */
  lemma EdgeDashesExample()
    ensures CreateSlug(Some("-Hello-World-")) == "Hello-World"
  {
    var dash, h, w := "-", "Hello", "World";
    assert dash + h + dash + w + dash == "-Hello-World-";
    assert h + "-" + w == "Hello-World";
    assert CreateSlug(Some(dash + h + dash + w + dash)) == h + "-" + w by {
      HelloWorldKept();
      TwoWordsSlug(dash, h, dash, w, dash);
    }
  }

  /** The letters of `Hello` and `World` are kept and the hyphen is not. */
  lemma HelloWorldKept()
    ensures forall c :: c in "Hello" ==> IsSlugChar(c)
    ensures forall c :: c in "World" ==> IsSlugChar(c)
    ensures forall c :: c in "-" ==> NotSlugChar(c)
  {
  }

  /** After trim() and the replacement, the words sit between an optional hyphen on either side. */
  lemma DashedTwoWords(pre: string, h: string, sep: string, w: string, post: string) returns (lead: string, tail: string)
    requires h != [] && w != [] && sep != []
    requires forall c :: c in pre ==> NotSlugChar(c)
    requires forall c :: c in h ==> IsSlugChar(c)
    requires forall c :: c in w ==> IsSlugChar(c)
    requires forall c :: c in sep ==> NotSlugChar(c)
    requires forall c :: c in post ==> NotSlugChar(c)
    ensures lead == [] || lead == "-"
    ensures tail == [] || tail == "-"
    ensures ReplaceRuns(NotSlugChar, StripEdges(IsJsWhitespace, pre + h + sep + w + post)) == lead + (h + ("-" + (w + tail)))
  {
    var mid := h + sep + w;
    assert !IsJsWhitespace(mid[0]) && !IsJsWhitespace(mid[|mid| - 1]) by {
      assert mid[0] == h[0] && mid[|mid| - 1] == w[|w| - 1] && h[0] in h && w[|w| - 1] in w;
      SlugCharIsNotWhitespace(h[0]);
      SlugCharIsNotWhitespace(w[|w| - 1]);
    }
    var p, q := StripAround(IsJsWhitespace, pre, mid, post);
    var words := h + (sep + (w + q));
    assert StripEdges(IsJsWhitespace, pre + h + sep + w + post) == p + words by {
      assert pre + h + sep + w + post == pre + mid + post;
      assert p + mid + q == p + words;
    }
    assert forall c :: c in q ==> NotSlugChar(c);
    tail := DashTwoWords(h, sep, w, q);
    assert forall c :: c in p ==> NotSlugChar(c);
    assert IsSlugChar(words[0]) by {
      assert words[0] == h[0] && h[0] in h;
    }
    lead := DashLead(p, words);
  }


  /** Stripping the edges of text around a block that starts and ends outside `f` keeps the block. */
  lemma StripAround(f: char -> bool, pre: string, mid: string, post: string) returns (p: string, q: string)
    requires mid != [] && !f(mid[0]) && !f(mid[|mid| - 1])
    ensures StripEdges(f, pre + mid + post) == p + mid + q
    ensures forall c :: c in p ==> c in pre
    ensures forall c :: c in q ==> c in post
  {
    var t := pre + mid + post;
    assert t == pre + (mid + post) && (mid + post)[0] == mid[0];
    p := DropLeadingBefore(f, pre, mid + post);
    var body := p + mid;
    assert body[|body| - 1] == mid[|mid| - 1];
    q := TrailingRunAfter(f, body, post);
    assert DropLeading(f, t) == body + post;
  }

  /** A leading run that stops before `rest` leaves a suffix of `pre` in front of it. */
  lemma DropLeadingBefore(f: char -> bool, pre: string, rest: string) returns (p: string)
    requires rest != [] && !f(rest[0])
    ensures DropLeading(f, pre + rest) == p + rest
    ensures forall c :: c in p ==> c in pre
  {
    var t := pre + rest;
    assert t[|pre|] == rest[0];
    var a := LeadingRun(f, t);
    assert a <= |pre|;
    p := pre[a..];
    assert t[a..] == p + rest;
  }

  /** A trailing run that stops after `body` leaves a prefix of `post` behind it. */
  lemma TrailingRunAfter(f: char -> bool, body: string, post: string) returns (q: string)
    requires body != [] && !f(body[|body| - 1])
    ensures var t := body + post; t[..|t| - TrailingRun(f, t)] == body + q
    ensures forall c :: c in q ==> c in post
  {
    var t := body + post;
    assert t[|body| - 1] == body[|body| - 1];
    var k := TrailingRun(f, t);
    assert k <= |post|;
    q := post[..|post| - k];
    assert t[..|t| - k] == body + q;
  }

  /** A leading run of dropped characters becomes one hyphen in front of a kept character. */
  lemma DashLead(p: string, rest: string) returns (lead: string)
    requires rest != [] && IsSlugChar(rest[0])
    requires forall c :: c in p ==> NotSlugChar(c)
    ensures lead == [] || lead == "-"
    ensures ReplaceRuns(NotSlugChar, p + rest) == lead + ReplaceRuns(NotSlugChar, rest)
  {
    if p == [] {
      lead := [];
      assert p + rest == rest;
    } else {
      lead := "-";
      ReplaceRunsRun(NotSlugChar, p, rest);
    }
  }

  /** The separator becomes one hyphen, and a non-empty dropped tail one more. */
  lemma DashTwoWords(h: string, sep: string, w: string, q: string) returns (tail: string)
    requires w != [] && sep != []
    requires forall c :: c in h ==> IsSlugChar(c)
    requires forall c :: c in w ==> IsSlugChar(c)
    requires forall c :: c in sep ==> NotSlugChar(c)
    requires forall c :: c in q ==> NotSlugChar(c)
    ensures tail == [] || tail == "-"
    ensures ReplaceRuns(NotSlugChar, h + (sep + (w + q))) == h + ("-" + (w + tail))
  {
    tail := ReplaceRuns(NotSlugChar, q);
    if q != [] {
      assert tail == "-" by {
        ReplaceRunsRun(NotSlugChar, q, []);
        assert q + [] == q;
      }
    }
    assert ReplaceRuns(NotSlugChar, w + q) == w + tail by {
      ReplaceRunsCopies(NotSlugChar, w, q);
    }
    assert ReplaceRuns(NotSlugChar, sep + (w + q)) == "-" + (w + tail) by {
      assert w[0] in w;
      ReplaceRunsRun(NotSlugChar, sep, w + q);
    }
    assert ReplaceRuns(NotSlugChar, h + (sep + (w + q))) == h + ("-" + (w + tail)) by {
      ReplaceRunsCopies(NotSlugChar, h, sep + (w + q));
    }
  }

  /** Stripping edge hyphens removes an optional hyphen on either side of a block without edge hyphens. */
  lemma StripTwoWords(lead: string, core: string, tail: string)
    requires core != [] && core[0] != '-' && core[|core| - 1] != '-'
    requires lead == [] || lead == "-"
    requires tail == [] || tail == "-"
    ensures StripEdges(Hyphen, lead + (core + tail)) == core
  {
    var dashed := lead + (core + tail);
    var rest := core + tail;
    assert DropLeading(Hyphen, dashed) == rest by {
      assert dashed[|lead|] == core[0];
      LeadingRunIs(Hyphen, dashed, |lead|);
    }
    assert TrailingRun(Hyphen, rest) == |tail| by {
      if tail == [] {
        assert rest == core;
      } else {
        assert rest[|rest| - 1] == '-' && rest[..|rest| - 1] == core;
      }
    }
    assert rest[..|core|] == core;
  }

  /** Regrouping a concatenation of five strings. */
  lemma Regroup5(a: string, b: string, c: string, d: string, e: string)
    ensures a + (b + (c + (d + e))) == a + ((b + c + d) + e)
  {
  }

  /**
   * The two revisions disagree on every title holding a character that is
   * neither kept by the current variant nor replaced by the legacy one, such
   * as `@` in `'Hello @ World!'`: the legacy slug keeps it, the current one
   * cannot.
   */
  lemma RevisionsDiverge(t: string, i: nat)
    requires i < |t| && NotSlugChar(t[i]) && !LegacySeparator(t[i]) && t[i] != '-'
    ensures CreateSlug(Some(t)) != CreateLegacySlug(Some(t))
  {
    var c := t[i];
    CreateSlugKeepsLetters(t);
    LegacySlugKeepsOthers(t);
    WithoutKeeps(LegacySeparator, t, i);
    var kept := Without(LegacySeparator, t);
    var j :| 0 <= j < |kept| && kept[j] == c;
    WithoutKeeps(Hyphen, kept, j);
    WithoutDrops(NotSlugChar, t, c);
  }

  /** A character `p` does not match survives filtering. */
  lemma {:induction false} WithoutKeeps(p: char -> bool, s: string, i: nat)
    requires i < |s| && !p(s[i])
    ensures exists j :: 0 <= j < |Without(p, s)| && Without(p, s)[j] == s[i]
    decreases i
  {
    if i == 0 {
      assert Without(p, s)[0] == s[0];
    } else {
      WithoutKeeps(p, s[1..], i - 1);
      var r := Without(p, s[1..]);
      var j :| 0 <= j < |r| && r[j] == s[i];
      if p(s[0]) {
        assert Without(p, s) == r;
      } else {
        assert Without(p, s) == [s[0]] + r;
        assert Without(p, s)[j + 1] == s[i];
      }
    }
  }

  /** Filtering with `p` leaves no character `p` matches. */
  lemma {:induction false} WithoutDrops(p: char -> bool, s: string, c: char)
    requires p(c)
    ensures forall j :: 0 <= j < |Without(p, s)| ==> Without(p, s)[j] != c
    decreases |s|
  {
    if s != [] {
      WithoutDrops(p, s[1..], c);
    }
  }
}

=== FILE: text.dfy ===
/**
 * String helpers shared by the components: decimal rendering of numbers
 * (the OTP, the date stamps of upload folders and file names), zero padding
 * as the date formatter does it, and the prefix/suffix/substring tests of
 * JavaScript's `startsWith`, `endsWith` and `includes`.
 */
module Text {

  predicate IsDigit(c: char) {
    '0' <= c <= '9'
  }

  predicate AllDigits(s: string) {
    forall i :: 0 <= i < |s| ==> IsDigit(s[i])
  }

  function DigitValue(c: char): nat
    requires IsDigit(c)
  {
    c as int - '0' as int
  }

  function DigitChar(d: nat): (c: char)
    requires d < 10
    ensures IsDigit(c) && DigitValue(c) == d
  {
    ('0' as int + d) as char
  }

  function Pow10(k: nat): nat {
    if k == 0 then 1 else 10 * Pow10(k - 1)
  }

  /** `String(n)` for a natural number: its decimal digits without leading zeros. */
  function Decimal(n: nat): (s: string)
    ensures 1 <= |s| && AllDigits(s)
    decreases n
  {
    if n < 10 then [DigitChar(n)] else Decimal(n / 10) + [DigitChar(n % 10)]
  }

  /** The number a string of decimal digits denotes (leading zeros allowed). */
  function ValueOf(s: string): nat
    requires AllDigits(s)
  {
    if s == [] then 0 else ValueOf(s[..|s| - 1]) * 10 + DigitValue(s[|s| - 1])
  }

  /** Reading back a rendered number gives the number. */
  lemma {:induction false} DecimalRoundTrip(n: nat)
    ensures ValueOf(Decimal(n)) == n
    decreases n
  {
    if n >= 10 {
      var s := Decimal(n);
      assert s[..|s| - 1] == Decimal(n / 10);
      DecimalRoundTrip(n / 10);
    }
  }

  /** A number has at most `k` digits exactly when it is below 10^k. */
  lemma {:induction false} DecimalLength(n: nat, k: nat)
    requires 1 <= k
    ensures |Decimal(n)| <= k <==> n < Pow10(k)
    decreases n
  {
    if n >= 10 {
      if k == 1 {
        assert Pow10(1) == 10;
      } else {
        DecimalLength(n / 10, k - 1);
      }
    } else {
      assert Pow10(k) >= 10 by { Pow10AtLeastTen(k); }
    }
  }

  lemma {:induction false} Pow10AtLeastTen(k: nat)
    requires 1 <= k
    ensures Pow10(k) >= 10
  {
    if k > 1 {
      Pow10AtLeastTen(k - 1);
    }
  }

  function Zeros(k: nat): (s: string)
    ensures |s| == k && AllDigits(s)
  {
    if k == 0 then [] else Zeros(k - 1) + "0"
  }

  lemma {:induction false} ValueOfAppend(a: string, b: string)
    requires AllDigits(a) && AllDigits(b)
    ensures AllDigits(a + b)
    ensures ValueOf(a + b) == ValueOf(a) * Pow10(|b|) + ValueOf(b)
    decreases |b|
  {
    var s := a + b;
    assert AllDigits(s) by {
      forall i | 0 <= i < |s| ensures IsDigit(s[i]) {
        if i >= |a| { assert s[i] == b[i - |a|]; }
      }
    }
    if b != [] {
      var b' := b[..|b| - 1];
      var d := DigitValue(b[|b| - 1]);
      ValueOfAppend(a, b');
      assert s[..|s| - 1] == a + b';
      assert s[|s| - 1] == b[|b| - 1];
      assert ValueOf(s) == ValueOf(a + b') * 10 + d;
      assert ValueOf(b) == ValueOf(b') * 10 + d;
      assert Pow10(|b|) == 10 * Pow10(|b'|);
      Regroup(ValueOf(a), ValueOf(b'), Pow10(|b'|), d);
    } else {
      assert s == a;
    }
  }

  lemma Regroup(x: int, y: int, p: int, d: int)
    ensures (x * p + y) * 10 + d == x * (10 * p) + (y * 10 + d)
  {
  }

  lemma {:induction false} ValueOfZeros(k: nat)
    ensures ValueOf(Zeros(k)) == 0
  {
    if k > 0 {
      assert Zeros(k)[..k - 1] == Zeros(k - 1);
      ValueOfZeros(k - 1);
    }
  }

  /**
   * The date formatter's zero fill: `n` written in decimal and padded on the
   * left with zeros to at least `width` digits.
   */
  function ZeroPad(n: nat, width: nat): (s: string)
    ensures AllDigits(s) && ValueOf(s) == n
    ensures |s| == if |Decimal(n)| < width then width else |Decimal(n)|
  {
    var digits := Decimal(n);
    var fill := if |digits| < width then width - |digits| else 0;
    PaddedValue(n, fill);
    Zeros(fill) + digits
  }

  lemma PaddedValue(n: nat, fill: nat)
    ensures AllDigits(Zeros(fill) + Decimal(n)) && ValueOf(Zeros(fill) + Decimal(n)) == n
  {
    var z, digits := Zeros(fill), Decimal(n);
    ValueOfAppend(z, digits);
    var v, p := ValueOf(z), Pow10(|digits|);
    assert v == 0 by { ValueOfZeros(fill); }
    assert v * p == 0;
    DecimalRoundTrip(n);
  }

  /** Padding to a fixed width loses nothing: equal padded strings come from equal numbers. */
  lemma ZeroPadInjective(a: nat, b: nat, width: nat)
    requires ZeroPad(a, width) == ZeroPad(b, width)
    ensures a == b
  {
  }

  /** `s.startsWith(prefix)` */
  predicate StartsWith(s: string, prefix: string) {
    |prefix| <= |s| && s[..|prefix|] == prefix
  }

  /** `s.endsWith(suffix)` */
  predicate EndsWith(s: string, suffix: string) {
    |suffix| <= |s| && s[|s| - |suffix|..] == suffix
  }

  /** A concatenation starts with its first piece and ends with its last. */
  lemma Affixes(a: string, b: string, c: string)
    ensures StartsWith(a + b + c, a) && EndsWith(a + b + c, c)
  {
    var s := a + b + c;
    assert s[..|a|] == a;
    assert s[|s| - |c|..] == c;
  }

  /** `s.includes(sub)`: `sub` occurs somewhere in `s`. */
  predicate Contains(s: string, sub: string)
    decreases |s|
  {
    StartsWith(s, sub) || (s != [] && Contains(s[1..], sub))
  }

  /** `includes` finds exactly the occurrences of `sub` at some offset of `s`. */
  lemma {:induction false} ContainsAt(s: string, sub: string, i: nat)
    requires i + |sub| <= |s| && s[i..i + |sub|] == sub
    ensures Contains(s, sub)
    decreases i
  {
    if i > 0 {
      assert s[1..][i - 1..i - 1 + |sub|] == sub;
      ContainsAt(s[1..], sub, i - 1);
    }
  }
}

=== FILE: upload.dfy ===
/**
 * The upload middleware of middleware/upload.js: which parts of a
 * multipart request are kept, the limits multer enforces, the folder a file
 * goes to and the name it is stored under. app.js configures the same
 * middleware once more, with a folder per day.
 *
 * Dates are already parsed: `moment`'s parsing and the clock are replaced by
 * a `StartDate` and today's `Date`. Paths follow Node's POSIX `path` module.
 */
module Upload {
  import opened Common
  import opened Text

  // ---------------------------------------------------------------------------
  // The filter and the limits

  /** The MIME types the filter lets through: any image, and PDF. */
  predicate FileFilter(mimetype: string) {
    StartsWith(mimetype, "image/") || mimetype == "application/pdf"
  }

  /** `limits.fileSize`: 20 MiB. */
  const MaxFileSize := 1024 * 1024 * 20

  const ImagesField := "images"
  const PdfField := "pdf_file"

  /** `maxCount` of the two configured fields. */
  const MaxImages := 10
  const MaxPdfs := 1

  /** One file part of the multipart body. */
  datatype Part = Part(field: string, mimetype: string, originalName: string, size: nat)

  /**
   * Whether the part carries a file name. multer drains a file part with an
   * empty name before it counts or filters anything, so such a part is
   * ignored altogether.
   */
  predicate Named(p: Part) {
    p.originalName != ""
  }

  datatype MulterError = LimitUnexpectedFile(field: string) | LimitFileSize(field: string)

  /** `req.files`: the parts that were kept, per field, in arrival order. */
  datatype Received = Received(images: seq<Part>, pdfFiles: seq<Part>)

  /**
   * The parts processed in order with `imagesLeft` and `pdfsLeft` slots.
   * A part without a file name is skipped. For the others, multer takes a slot of the part's field before it asks the filter, so
   * a rejected part uses up a slot too; a part for an unknown field, or one
   * past its field's count, fails the request with `LIMIT_UNEXPECTED_FILE`.
   * A part the filter rejects is dropped silently. A kept part larger than
   * the size limit fails the request with `LIMIT_FILE_SIZE`.
   */
  function Take(parts: seq<Part>, imagesLeft: int, pdfsLeft: int): Result<Received, MulterError>
    decreases |parts|
  {
    if parts == [] then Ok(Received([], []))
    else
      var p := parts[0];
      var isImages := p.field == ImagesField;
      var left := if isImages then imagesLeft else if p.field == PdfField then pdfsLeft else 0;
      if !Named(p) then Take(parts[1..], imagesLeft, pdfsLeft)
      else if left <= 0 then Err(LimitUnexpectedFile(p.field))
      else
        var imagesLeft' := if isImages then imagesLeft - 1 else imagesLeft;
        var pdfsLeft' := if isImages then pdfsLeft else pdfsLeft - 1;
        if !FileFilter(p.mimetype) then Take(parts[1..], imagesLeft', pdfsLeft')
        else if p.size > MaxFileSize then Err(LimitFileSize(p.field))
        else
          match Take(parts[1..], imagesLeft', pdfsLeft')
          case Err(e) => Err(e)
          case Ok(r) =>
            if isImages then Ok(r.(images := [p] + r.images)) else Ok(r.(pdfFiles := [p] + r.pdfFiles))
  }

  /** `upload.fields([{ name: 'images', maxCount: 10 }, { name: 'pdf_file', maxCount: 1 }])` */
  function Receive(parts: seq<Part>): Result<Received, MulterError> {
    Take(parts, MaxImages, MaxPdfs)
  }

  /** The named parts sent for `field`, kept or not. */
  function SentFor(field: string): Part -> bool {
    (p: Part) => Named(p) && p.field == field
  }

  /** The named parts sent for `field` that the filter accepts. */
  function KeptOf(field: string): Part -> bool {
    (p: Part) => Named(p) && p.field == field && FileFilter(p.mimetype)
  }

  /** How many slots of `field` the parts take. */
  function CountField(parts: seq<Part>, field: string): nat {
    |Where(SentFor(field), parts)|
  }

  /** What the limits demand of a request, regardless of the order of its parts. */
  predicate WithinLimits(parts: seq<Part>, imagesLeft: int, pdfsLeft: int) {
    && KnownFields(parts)
    && CountField(parts, ImagesField) <= imagesLeft
    && CountField(parts, PdfField) <= pdfsLeft
    && SizesWithin(parts)
  }

  /** Every named part names one of the two configured fields. */
  predicate KnownFields(parts: seq<Part>) {
    forall i :: 0 <= i < |parts| && Named(parts[i]) ==> parts[i].field == ImagesField || parts[i].field == PdfField
  }

  /** Every named part the filter accepts is within the size limit. */
  predicate SizesWithin(parts: seq<Part>) {
    forall i :: 0 <= i < |parts| && Named(parts[i]) && FileFilter(parts[i].mimetype) ==> parts[i].size <= MaxFileSize
  }

  /**
   * A request goes through exactly when it stays within the limits, and
   * then each field receives exactly the named parts the filter accepts, in
   * order.
   */
  lemma {:induction false} TakeSpec(parts: seq<Part>, imagesLeft: nat, pdfsLeft: nat)
    ensures Take(parts, imagesLeft, pdfsLeft).Ok? <==> WithinLimits(parts, imagesLeft, pdfsLeft)
    ensures Take(parts, imagesLeft, pdfsLeft).Ok? ==>
      && Take(parts, imagesLeft, pdfsLeft).value.images == Where(KeptOf(ImagesField), parts)
      && Take(parts, imagesLeft, pdfsLeft).value.pdfFiles == Where(KeptOf(PdfField), parts)
    decreases |parts|
  {
    if parts != [] {
      var p := parts[0];
      var isImages := p.field == ImagesField;
      var left := if isImages then imagesLeft else if p.field == PdfField then pdfsLeft else 0;
      WithinLimitsCons(parts, imagesLeft, pdfsLeft);
      if !Named(p) {
        TakeSpec(parts[1..], imagesLeft, pdfsLeft);
      } else if left > 0 {
        var imagesLeft' := if isImages then imagesLeft - 1 else imagesLeft;
        var pdfsLeft' := if isImages then pdfsLeft else pdfsLeft - 1;
        TakeSpec(parts[1..], imagesLeft', pdfsLeft');
      }
    }
  }

  /** What the limits demand of the first part, and of the rest with one slot fewer. */
  lemma WithinLimitsCons(parts: seq<Part>, imagesLeft: int, pdfsLeft: int)
    requires parts != []
    ensures var p := parts[0];
      var isImages := p.field == ImagesField;
      var left := if isImages then imagesLeft else if p.field == PdfField then pdfsLeft else 0;
      WithinLimits(parts, imagesLeft, pdfsLeft) <==>
        if !Named(p) then WithinLimits(parts[1..], imagesLeft, pdfsLeft)
        else
          && left > 0
          && (FileFilter(p.mimetype) ==> p.size <= MaxFileSize)
          && WithinLimits(parts[1..], if isImages then imagesLeft - 1 else imagesLeft,
               if isImages then pdfsLeft else pdfsLeft - 1)
  {
    CountFieldCons(parts, ImagesField);
    CountFieldCons(parts, PdfField);
    PartsCons(parts);
  }

  lemma PartsCons(parts: seq<Part>)
    requires parts != []
    ensures KnownFields(parts) <==>
      (Named(parts[0]) ==> parts[0].field == ImagesField || parts[0].field == PdfField) && KnownFields(parts[1..])
    ensures SizesWithin(parts) <==>
      (Named(parts[0]) && FileFilter(parts[0].mimetype) ==> parts[0].size <= MaxFileSize) && SizesWithin(parts[1..])
  {
    assert forall i :: 0 < i < |parts| ==> parts[i] == parts[1..][i - 1];
  }

  lemma CountFieldCons(parts: seq<Part>, field: string)
    requires parts != []
    ensures CountField(parts, field) == (if Named(parts[0]) && parts[0].field == field then 1 else 0) + CountField(parts[1..], field)
  {
  }

  /** Requests that pass carry at most 10 images and one PDF, all accepted by the filter and within the size limit. */
  lemma ReceiveBounds(parts: seq<Part>)
    requires Receive(parts).Ok?
    ensures var r := Receive(parts).value;
      && |r.images| <= MaxImages && |r.pdfFiles| <= MaxPdfs
      && (forall i :: 0 <= i < |r.images| ==> FileFilter(r.images[i].mimetype) && r.images[i].size <= MaxFileSize)
      && (forall i :: 0 <= i < |r.pdfFiles| ==> FileFilter(r.pdfFiles[i].mimetype) && r.pdfFiles[i].size <= MaxFileSize)
  {
    TakeSpec(parts, MaxImages, MaxPdfs);
    var r := Receive(parts).value;
    WhereWithin(KeptOf(ImagesField), SentFor(ImagesField), parts);
    WhereWithin(KeptOf(PdfField), SentFor(PdfField), parts);
  }

  /** Selecting by a stronger condition selects no more rows. */
  lemma {:induction false} WhereWithin<T>(p: T -> bool, q: T -> bool, rows: seq<T>)
    requires forall x :: p(x) ==> q(x)
    ensures |Where(p, rows)| <= |Where(q, rows)|
    decreases |rows|
  {
    if rows != [] {
      WhereWithin(p, q, rows[1..]);
    }
  }

  /** A part the filter rejects changes nothing but the count of its field. */
  lemma RejectedIsDropped(parts: seq<Part>, p: Part)
    requires !FileFilter(p.mimetype) && (p.field == ImagesField || p.field == PdfField)
    requires Receive(parts).Ok? && Receive(parts + [p]).Ok?
    ensures Receive(parts + [p]).value == Receive(parts).value
  {
    var all := parts + [p];
    TakeSpec(parts, MaxImages, MaxPdfs);
    TakeSpec(all, MaxImages, MaxPdfs);
    WhereAppend(KeptOf(ImagesField), parts, [p]);
    WhereAppend(KeptOf(PdfField), parts, [p]);
  }

  /** A part without a file name changes nothing, wherever it comes. */
  lemma {:induction false} UnnamedIsIgnored(parts: seq<Part>, p: Part, rest: seq<Part>, imagesLeft: int, pdfsLeft: int)
    requires !Named(p)
    ensures Take(parts + [p] + rest, imagesLeft, pdfsLeft) == Take(parts + rest, imagesLeft, pdfsLeft)
    decreases |parts|
  {
    if parts == [] {
      assert parts + [p] + rest == [p] + rest && parts + rest == rest;
      assert ([p] + rest)[1..] == rest;
    } else {
      assert (parts + [p] + rest)[1..] == parts[1..] + [p] + rest;
      assert (parts + rest)[1..] == parts[1..] + rest;
      assert (parts + [p] + rest)[0] == parts[0] && (parts + rest)[0] == parts[0];
      var q := parts[0];
      var isImages := q.field == ImagesField;
      UnnamedIsIgnored(parts[1..], p, rest, imagesLeft, pdfsLeft);
      UnnamedIsIgnored(parts[1..], p, rest, if isImages then imagesLeft - 1 else imagesLeft,
        if isImages then pdfsLeft else pdfsLeft - 1);
    }
  }

  lemma {:induction false} WhereAppend<T>(p: T -> bool, a: seq<T>, b: seq<T>)
    ensures Where(p, a + b) == Where(p, a) + Where(p, b)
    decreases |a|
  {
    if a == [] {
      assert a + b == b;
    } else {
      assert (a + b)[1..] == a[1..] + b;
      WhereAppend(p, a[1..], b);
    }
  }

  // ---------------------------------------------------------------------------
  // Node's path.extname and path.basename

  /** The text after the last `/`, or all of `s` when it has none. */
  function AfterLastSlash(s: string): (r: string)
    ensures '/' !in r
    ensures |r| <= |s| && r == s[|s| - |r|..]
    ensures |r| < |s| ==> s[|s| - |r| - 1] == '/'
  {
    match LastIndex('/', s)
    case None => s
    case Some(i) => s[i + 1..]
  }

  /** The file-name part of a path, trailing slashes ignored. */
  function Component(path: string): (c: string)
    ensures '/' !in c
  {
    var n := |path| - TrailingSlashes(path);
    AfterLastSlash(path[..n])
  }

  function TrailingSlashes(s: string): (n: nat)
    ensures n <= |s|
  {
    if s != [] && s[|s| - 1] == '/' then 1 + TrailingSlashes(s[..|s| - 1]) else 0
  }

  /** The index of the last `x`, if any. */
  function LastIndex(x: char, s: string): (r: Option<nat>)
    ensures r.Some? ==> r.value < |s| && s[r.value] == x && x !in s[r.value + 1..]
    ensures r.None? ==> x !in s
  {
    if s == [] then None
    else if s[|s| - 1] == x then Some(|s| - 1)
    else
      var r := LastIndex(x, s[..|s| - 1]);
      assert s == s[..|s| - 1] + [s[|s| - 1]];
      r
  }

  /** The index of the last `.`, if any. */
  function LastDot(c: string): Option<nat> {
    LastIndex('.', c)
  }

  /**
   * `path.extname` of a file name: from its last `.` to the end, except
   * that a name whose only dot leads it (`.bashrc`), a name without a dot
   * and the name `..` have none.
   */
  function Ext(c: string): (e: string)
    ensures e == [] || (e[0] == '.' && '.' !in e[1..])
    ensures |e| < |c| || e == []
  {
    match LastDot(c)
    case None => []
    case Some(d) => if d == 0 || c == ".." then [] else c[d..]
  }

  /** `path.basename(name, ext)` with `ext` the name's own extension. */
  function Stem(c: string): (s: string)
    ensures s + Ext(c) == c
  {
    c[..|c| - |Ext(c)|]
  }

  /** The stored name: `${name}_${sDate}_${uniqueSuffix}${ext}`. */
  function StoredName(originalName: string, dateStamp: string, suffix: string): (r: string)
    ensures EndsWith(r, Ext(Component(originalName)))
    ensures StartsWith(r, Stem(Component(originalName)) + "_")
  {
    var c := Component(originalName);
    var r := Compose(Stem(c), dateStamp, suffix, Ext(c));
    assert StartsWith(r, Stem(c) + "_") && EndsWith(r, Ext(c)) by {
      Affixes(Stem(c) + "_", dateStamp + "_" + suffix, Ext(c));
    }
    r
  }

  /** The template of the stored name, filled in. */
  function Compose(stem: string, dateStamp: string, suffix: string, ext: string): string {
    (stem + "_") + (dateStamp + "_" + suffix) + ext
  }

  /**
   * The stored file keeps the original's extension as Node reads it, when
   * the date stamp and the suffix hold no `.` or `/` (digits and `-` in the
   * source) and the original is not named `..`.
   */
  lemma StoredNameKeepsExt(originalName: string, dateStamp: string, suffix: string)
    requires '.' !in dateStamp && '/' !in dateStamp
    requires '.' !in suffix && '/' !in suffix
    requires Component(originalName) != ".."
    ensures Ext(Component(StoredName(originalName, dateStamp, suffix))) == Ext(Component(originalName))
  {
    var c := Component(originalName);
    ComposeKeepsExt(c, dateStamp, suffix);
  }

  /** The stored name built from a component keeps that component's extension. */
  lemma ComposeKeepsExt(c: string, dateStamp: string, suffix: string)
    requires '.' !in dateStamp && '/' !in dateStamp
    requires '.' !in suffix && '/' !in suffix
    requires '/' !in c && c != ".."
    ensures Ext(Component(Compose(Stem(c), dateStamp, suffix, Ext(c)))) == Ext(c)
  {
    var r := Compose(Stem(c), dateStamp, suffix, Ext(c));
    assert Component(r) == r by {
      ComposeNoSlash(c, dateStamp, suffix);
      NoSlashComponent(r);
    }
    ComposeExt(c, dateStamp, suffix);
  }

  lemma ComposeNoSlash(c: string, dateStamp: string, suffix: string)
    requires '/' !in dateStamp && '/' !in suffix && '/' !in c
    ensures '/' !in Compose(Stem(c), dateStamp, suffix, Ext(c))
  {
    var stem, ext := Stem(c), Ext(c);
    var r := Compose(stem, dateStamp, suffix, ext);
    forall i | 0 <= i < |r| ensures r[i] != '/' {
      if i < |stem| {
        assert r[i] == c[i];
      } else if i < |r| - |ext| {
        assert r[i] in "_" + dateStamp + "_" + suffix by {
          assert r[i] == ("_" + dateStamp + "_" + suffix)[i - |stem|];
        }
      } else {
        assert r[i] == c[|stem| + i - (|r| - |ext|)];
      }
    }
  }

  lemma ComposeExt(c: string, dateStamp: string, suffix: string)
    requires '.' !in dateStamp && '.' !in suffix && c != ".."
    ensures Ext(Compose(Stem(c), dateStamp, suffix, Ext(c))) == Ext(c)
  {
    var stem, ext := Stem(c), Ext(c);
    var middle := "_" + dateStamp + "_" + suffix;
    assert Compose(stem, dateStamp, suffix, ext) == stem + middle + ext;
    assert '.' !in middle;
    if ext == [] {
      NoExtBeforeMiddle(c, middle);
      assert stem + middle + ext == stem + middle;
    } else {
      assert Ext(stem + middle + ext) == ext by {
        ExtAfterMiddle(stem, middle, ext);
      }
    }
  }

  lemma NoExtBeforeMiddle(c: string, middle: string)
    requires Ext(c) == [] && c != ".." && '.' !in middle && middle != [] && middle[0] == '_'
    ensures Ext(Stem(c) + middle) == []
  {
    assert Stem(c) == c;
    NoExtStem(c);
    DotlessTail(c, middle);
  }

  lemma ExtAfterMiddle(stem: string, middle: string, ext: string)
    requires '.' !in middle && middle != [] && ext != [] && ext[0] == '.' && '.' !in ext[1..]
    ensures Ext(stem + middle + ext) == ext
  {
    var head := stem + middle;
    assert head[|head| - 1] == middle[|middle| - 1];
    assert head + ext != ".." by {
      if |head + ext| == 2 {
        assert (head + ext)[0] == middle[0] && middle[0] in middle;
      }
    }
    ExtAfterDot(head, ext);
  }

  /** A name without `/` is its own component. */
  lemma NoSlashComponent(s: string)
    requires '/' !in s
    ensures Component(s) == s
  {
    assert TrailingSlashes(s) == 0 by {
      if s != [] {
        assert s[|s| - 1] in s;
      }
    }
    assert s[..|s|] == s;
  }

  /** A name without extension has no dot past its first character, or is `..`. */
  lemma NoExtStem(c: string)
    requires Ext(c) == [] && c != ".."
    ensures forall i :: 0 < i < |c| ==> c[i] != '.'
  {
    match LastDot(c)
    case None =>
      assert forall i :: 0 <= i < |c| ==> c[i] in c;
    case Some(d) =>
      assert d == 0;
      forall i | 0 < i < |c| ensures c[i] != '.' {
        assert c[i] == c[1..][i - 1];
      }
  }

  /** Appending dot-free text to such a name keeps it without extension. */
  lemma DotlessTail(stem: string, middle: string)
    requires forall i :: 0 < i < |stem| ==> stem[i] != '.'
    requires '.' !in middle && middle != [] && middle[0] == '_'
    ensures Ext(stem + middle) == []
  {
    var s := stem + middle;
    match LastDot(s)
    case None =>
    case Some(d) =>
      if d < |stem| {
        assert d == 0;
      }
  }

  /** After a dot-led, dot-free tail, the extension is that tail. */
  lemma ExtAfterDot(head: string, ext: string)
    requires ext != [] && ext[0] == '.' && '.' !in ext[1..]
    requires head != [] && head + ext != ".."
    ensures Ext(head + ext) == ext
  {
    var s := head + ext;
    var d := |head|;
    LastDotOfTail(head, ext);
    assert LastDot(s) == Some(d);
    assert s[d..] == ext;
  }

  lemma LastDotOfTail(head: string, ext: string)
    requires ext != [] && ext[0] == '.' && '.' !in ext[1..]
    ensures LastDot(head + ext) == Some(|head|)
  {
    var s := head + ext;
    assert s[|head|] == '.';
  }

  // ---------------------------------------------------------------------------
  // Folders and date stamps

  datatype Date = Date(year: int, month: int, day: int)

  predicate ValidDate(d: Date) {
    1 <= d.month <= 12 && 1 <= d.day <= 31
  }

  /**
   * The `start_date` form field: missing or empty, a date `moment` cannot
   * read, or a date it can.
   */
  datatype StartDate = NoDate | Unparsable | Parsed(date: Date)

  /** What `moment` prints for an invalid date, whatever the format. */
  const InvalidDate := "Invalid date"

  const MonthNames: seq<string> := [
    "January", "February", "March", "April", "May", "June",
    "July", "August", "September", "October", "November", "December"]

  /** `MMMM` in the default English locale. */
  function MonthName(m: int): (s: string)
    requires 1 <= m <= 12
    ensures '_' !in s && '/' !in s && s != []
  {
    MonthNames[m - 1]
  }

  /** `YYYY`: at least four digits, with a minus sign before the year 0. */
  function YearText(y: int): (s: string)
    ensures '_' !in s && '/' !in s
  {
    var digits := ZeroPad(if y < 0 then -y else y, 4);
    assert forall i :: 0 <= i < |digits| ==> digits[i] != '_' && digits[i] != '/';
    (if y < 0 then "-" else "") + digits
  }

  /** The date used: the form's, or today's when the field is missing or empty. */
  function EffectiveDate(start: StartDate, today: Date): Option<Date> {
    match start
    case NoDate => Some(today)
    case Unparsable => None
    case Parsed(d) => Some(d)
  }

  /** `destination`: the `MMMM_YYYY` folder of the start date. */
  function FolderName(start: StartDate, today: Date): string
    requires ValidDate(today) && (start.Parsed? ==> ValidDate(start.date))
  {
    match EffectiveDate(start, today)
    case None => InvalidDate
    case Some(d) => MonthName(d.month) + "_" + YearText(d.year)
  }

  /** app.js: the `MMMM_YYYY/DD` folder, one per day. */
  function DayFolderName(start: StartDate, today: Date): string
    requires ValidDate(today) && (start.Parsed? ==> ValidDate(start.date))
  {
    match EffectiveDate(start, today)
    case None => InvalidDate
    case Some(d) => MonthName(d.month) + "_" + YearText(d.year) + "/" + ZeroPad(d.day, 2)
  }

  /** `filename`: the `YYYYMMDD` stamp of the start date. */
  function DateStamp(start: StartDate, today: Date): string
    requires ValidDate(today) && (start.Parsed? ==> ValidDate(start.date))
  {
    match EffectiveDate(start, today)
    case None => InvalidDate
    case Some(d) => YearText(d.year) + ZeroPad(d.month, 2) + ZeroPad(d.day, 2)
  }

  /** Two start dates share a folder exactly when they fall in the same month of the same year. */
  lemma SameFolderIffSameMonth(a: Date, b: Date, today: Date)
    requires ValidDate(a) && ValidDate(b) && ValidDate(today)
    ensures FolderName(Parsed(a), today) == FolderName(Parsed(b), today)
        <==> a.month == b.month && a.year == b.year
  {
    if FolderName(Parsed(a), today) == FolderName(Parsed(b), today) {
      SplitAtUnderscore(MonthName(a.month), YearText(a.year), MonthName(b.month), YearText(b.year));
      MonthNameInjective(a.month, b.month);
      YearTextInjective(a.year, b.year);
    }
  }

  /** A missing start date files the upload under today. */
  lemma MissingDateIsToday(today: Date)
    requires ValidDate(today)
    ensures FolderName(NoDate, today) == FolderName(Parsed(today), today)
    ensures DateStamp(NoDate, today) == DateStamp(Parsed(today), today)
  {
  }

  /** The day folder of app.js lies inside the month folder of middleware/upload.js. */
  lemma DayFolderInsideMonthFolder(start: StartDate, today: Date)
    requires ValidDate(today) && (start.Parsed? ==> ValidDate(start.date))
    requires !start.Unparsable?
    ensures StartsWith(DayFolderName(start, today), FolderName(start, today) + "/")
    ensures FolderName(start, today) != DayFolderName(start, today)
  {
    var f := FolderName(start, today);
    var g := DayFolderName(start, today);
    assert g[..|f + "/"|] == f + "/";
  }

  /**
   * For the years 0 to 9999 the stamp is eight digits whose value is
   * year * 10000 + month * 100 + day, so stamps sort as their dates do.
   */
  lemma DateStampDigits(d: Date, today: Date)
    requires ValidDate(d) && ValidDate(today) && 0 <= d.year <= 9999
    ensures var s := DateStamp(Parsed(d), today);
      && |s| == 8 && AllDigits(s)
      && ValueOf(s) == d.year * 10000 + d.month * 100 + d.day
  {
    var y := ZeroPad(d.year, 4);
    assert YearText(d.year) == y by {
      assert "" + y == y;
    }
    PaddedDigits(d.year, d.month, d.day);
  }

  lemma PaddedDigits(year: nat, month: nat, day: nat)
    requires year <= 9999 && month <= 99 && day <= 99
    ensures var s := ZeroPad(year, 4) + ZeroPad(month, 2) + ZeroPad(day, 2);
      && |s| == 8 && AllDigits(s)
      && ValueOf(s) == year * 10000 + month * 100 + day
  {
    var y, m, dd := ZeroPad(year, 4), ZeroPad(month, 2), ZeroPad(day, 2);
    assert |y| == 4 by { DecimalLength(year, 4); }
    assert |m| == 2 && |dd| == 2 by {
      DecimalLength(month, 2);
      DecimalLength(day, 2);
    }
    assert Pow10(2) == 100;
    assert ValueOf(y + m) == year * 100 + month by { ValueOfAppend(y, m); }
    assert ValueOf(y + m + dd) == (year * 100 + month) * 100 + day by { ValueOfAppend(y + m, dd); }
    Shift(year, month, day);
  }

  lemma Shift(y: int, m: int, d: int)
    ensures (y * 100 + m) * 100 + d == y * 10000 + m * 100 + d
  {
  }

  lemma SplitAtUnderscore(a: string, b: string, c: string, d: string)
    requires '_' !in a && '_' !in c
    requires a + "_" + b == c + "_" + d
    ensures a == c && b == d
  {
    var s := a + "_" + b;
    FirstUnderscoreAfter(a, b);
    FirstUnderscoreAfter(c, d);
    assert a == s[..|a|] && c == s[..|c|];
    assert b == s[|a| + 1..] && d == s[|c| + 1..];
  }

  /** The index of the first `_`, or the length when there is none. */
  function FirstUnderscore(s: string): nat
    decreases |s|
  {
    if s == [] || s[0] == '_' then 0 else 1 + FirstUnderscore(s[1..])
  }

  lemma {:induction false} FirstUnderscoreAfter(a: string, b: string)
    requires '_' !in a
    ensures FirstUnderscore(a + "_" + b) == |a|
    decreases |a|
  {
    var s := a + "_" + b;
    if a == [] {
      assert s[0] == '_';
    } else {
      assert a[0] in a;
      assert s[1..] == a[1..] + "_" + b;
      FirstUnderscoreAfter(a[1..], b);
    }
  }

  lemma MonthNameInjective(m: int, n: int)
    requires 1 <= m <= 12 && 1 <= n <= 12
    requires MonthName(m) == MonthName(n)
    ensures m == n
  {
  }

  lemma YearTextInjective(y: int, z: int)
    requires YearText(y) == YearText(z)
    ensures y == z
  {
    var dy := ZeroPad(if y < 0 then -y else y, 4);
    var dz := ZeroPad(if z < 0 then -z else z, 4);
    YearTextSign(y);
    YearTextSign(z);
    if y < 0 {
      assert YearText(y)[1..] == dy && YearText(z)[1..] == dz;
      ZeroPadInjective(-y, -z, 4);
    } else {
      assert YearText(y) == dy && YearText(z) == dz;
      ZeroPadInjective(y, z, 4);
    }
  }

  /** The year text starts with a minus sign exactly for the years before 0. */
  lemma YearTextSign(y: int)
    ensures YearText(y) != [] && (YearText(y)[0] == '-' <==> y < 0)
  {
    var digits := ZeroPad(if y < 0 then -y else y, 4);
    assert IsDigit(digits[0]);
  }
}
